=== FILE: README.md ===
# TeenAstro LX200 driver core, modelled in Dafny

This project models the pure logic of the INDI `LX200_TeenAstro` telescope
driver. The serial line is not modelled. Every controller reply and every
write outcome is an input, and each command a handler writes is collected,
in order, in a `sent` list. The `:GU#` and `:Gm#` queries of the status poll
are not recorded; the poll is modelled on their replies. The modelled logic:

- **Status decoding** (`StatusDecoder`). The `:GU#` status string is
  decoded behind a change guard on the previous reply. Each marker character
  is looked for anywhere in the string, in a fixed order, and a later match
  overwrites an earlier label. Park handling has a one-shot first-read
  branch. The pause-at-home marker 'u' turns one of two switches on, and
  no poll turns either off (only the pause-at-home switch handler resets
  them). The error code is the last character minus '0'. The `:Gm#` pier
  side reply is decoded behind its own guard. A poll is a pure step
  `(decoder, reply) -> decoder`.
- **Alignment** (`Alignment`). The star-count selector maps to a wire
  count, and the start command is clamped to the controller's maximum.
  Also modelled: recording a star, writing the alignment, and decoding the
  `:A?#` progress triplet.
- **Command senders** (`Channel`). The blind sender and the confirmed
  sender are both declared `bool` but return the tty layer's `int` error
  code on failure.
- **Number handlers** (`NumberSettings`). Backlash, meridian limits and
  elevation limits each validate their input and send their commands in a
  fixed order. The maximum slew rate command and the date command are also
  here.
- **Switch handlers** (`SwitchSettings`). Tracking compensation, automatic
  meridian flip, pause at home, frequency adjustment and preferred pier side
  share one first-success walk, and differ in the sender result they treat
  as success. Homing is here too.
- **C helpers** (`CString`). `strstr` on one character, `c - '0'` on a
  signed `char`, `%d` / `%02d`, and `snprintf` truncation.

Doubles are `real`; `(int)` truncates toward zero. Strings are `seq<char>`,
kept within the 64-byte `RB_MAX_LEN` buffers where the driver stores them.

The `Errors` enum (lx200_TeenAstro.h:51) puts `ERR_LIMIT_SENSE` at ordinal 3
and `ERR_DEC` at 4, and the model follows the enum.

## Model

Source paths are relative to the driver repository's root.

| member | source | states |
|---|---|---|
| CString.Digits | libindi/drivers/telescope/lx200_TeenAstro.cpp:357 | the decimal digits of n read back as n, with one digit exactly when n < 10 and no leading zero |
| CString.Dec | libindi/drivers/telescope/lx200_TeenAstro.cpp:357 | `%d` reads back as the number, with a '-' and the magnitude for negatives; never contains NUL or '#' |
| CString.Pad2 | libindi/drivers/telescope/lx200_TeenAstro.cpp:1268 | `%02d` of 0..99 is exactly two digits reading back as the number; otherwise it is plain `%d` |
| CString.Truncate | libindi/drivers/telescope/lx200_TeenAstro.cpp:357 | `snprintf` keeps a prefix of at most size-1 characters, and the whole string when it fits |
| CString.DigitChar | libindi/drivers/telescope/lx200_TeenAstro.cpp:1138 | the digit character whose `c - '0'` is d |
| CString.CharAt | libindi/drivers/telescope/lx200_TeenAstro.cpp:1157 | the buffer reads NUL exactly at and past the end of a string that fits it |
| CString.SignedChar | libindi/drivers/telescope/lx200_TeenAstro.cpp:1394 | a `char` holds one byte as a signed value in -128..127, equal to the byte below 128 and congruent to it modulo 256 |
| CString.DigitValue | libindi/drivers/telescope/lx200_TeenAstro.cpp:1394 | `c - '0'` on a signed `char` is 0..9 for a digit and always within -176..79 |
| CString.HasPairImpliesBoth | libindi/drivers/telescope/lx200_TeenAstro.cpp:1052 | the substring "nN" occurring implies both 'n' and 'N' occur |
| Channel.SendBlind | libindi/drivers/telescope/lx200_TeenAstro.cpp:1275-1288 | the blind sender returns true on success and on a failed write alike (nonzero code as bool) |
| Channel.SendConfirmed | libindi/drivers/telescope/lx200_TeenAstro.cpp:1290-1314 | true exactly when the byte read is '0'; a failed write is true; a short read is true exactly when its tty code is nonzero |
| Channel.FailureIndistinguishableFromZero | libindi/drivers/telescope/lx200_TeenAstro.cpp:1302-1313 | a failed write and a failed read return the same result as an answered '0' |
| StatusDecoder.Ordinal | libindi/drivers/telescope/lx200_TeenAstro.h:51 | the 11 error codes have ordinals within 0..10 |
| StatusDecoder.FromOrdinal | libindi/drivers/telescope/lx200_TeenAstro.h:51 | an error code exists exactly for 0..10, and its ordinal is the one asked for |
| StatusDecoder.OrdinalRoundTrip | libindi/drivers/telescope/lx200_TeenAstro.h:51 | ordinal then lookup gives back every error code |
| StatusDecoder.ErrorChar | libindi/drivers/telescope/lx200_TeenAstro.cpp:1138 | the status character whose value minus '0' is the code's ordinal |
| StatusDecoder.ErrorCharDecodes | libindi/drivers/telescope/lx200_TeenAstro.cpp:1138-1149 | a changed status ending in a code's character publishes that code's label |
| StatusDecoder.Initial | libindi/drivers/telescope/lx200_TeenAstro.h:166-176 | a new driver has first read pending and both previous replies empty |
| StatusDecoder.SetParked | libindi/drivers/telescope/lx200_TeenAstro.cpp:1035-1040 | the park flag is set; the state is Parked exactly when the flag is, and unparking leaves it Idle; the labels are untouched |
| StatusDecoder.SetParkedIdempotent | libindi/drivers/telescope/lx200_TeenAstro.cpp:1035-1040 | setting the same park flag twice has the effect of once |
| StatusDecoder.DecodeTracking | libindi/drivers/telescope/lx200_TeenAstro.cpp:1008-1022 | n and N give Idle, n only Slewing, N only Tracking, neither leaves the state unchanged |
| StatusDecoder.Unparked | libindi/drivers/telescope/lx200_TeenAstro.cpp:1049-1059 | the unpark marker clears the flag and gives Idle exactly when "nN" occurs, else Tracking |
| StatusDecoder.ParkFirstRead | libindi/drivers/telescope/lx200_TeenAstro.cpp:1031-1061 | on the first read P, F, I, p apply in that order, the last present one deciding flag, state and label |
| StatusDecoder.ParkLaterRead | libindi/drivers/telescope/lx200_TeenAstro.cpp:1062-1102 | later, P and I act only when not parked and F and p only when parked, with the flag read again after P |
| StatusDecoder.DecodeHome | libindi/drivers/telescope/lx200_TeenAstro.cpp:1106-1125 | only the park label changes: "Waiting at Home" with 'w'; otherwise "At Home and UnParked" with 'H' and 'p', "At Home and Parked" with 'H' and 'P' but no 'p', and no change without 'H' or with neither 'P' nor 'p' |
| StatusDecoder.DecodeMotion | libindi/drivers/telescope/lx200_TeenAstro.cpp:1008-1125 | the tracking label after tracking, park and home decoding follows the n/N table |
| StatusDecoder.DecodeRefraction | libindi/drivers/telescope/lx200_TeenAstro.cpp:1024-1028 | with 'r' the label is Full Comp iff 't' is present, else Refractory Comp; "Refractoring On" never survives |
| StatusDecoder.DecodeTimeSync | libindi/drivers/telescope/lx200_TeenAstro.cpp:1127-1129 | the time sync label says PPS / GPS exactly when 'S' is present, else N/A |
| StatusDecoder.DecodeMount | libindi/drivers/telescope/lx200_TeenAstro.cpp:1131-1135 | mount label precedence A > k > K > E, none leaving it unchanged |
| StatusDecoder.DecodeError | libindi/drivers/telescope/lx200_TeenAstro.cpp:1137-1149 | the last character minus '0' selects the error label; a value outside the enum sets none |
| StatusDecoder.DecodeChanged | libindi/drivers/telescope/lx200_TeenAstro.cpp:1005-1123 | a changed status is recorded as the previous reply and as the raw label, first read is cleared, the pier is untouched; 'u' turns the pause "on" switch on, its absence the "off" switch, neither turns the other off, and the pause status is OK |
| StatusDecoder.StatusStep | libindi/drivers/telescope/lx200_TeenAstro.cpp:1001-1005 | a repeated reply changes nothing; otherwise it is recorded; first read survives only a repeat; buffers stay bounded |
| StatusDecoder.ChangedReplyLabels | libindi/drivers/telescope/lx200_TeenAstro.cpp:1007-1149 | the full label table a changed status publishes, marker by marker, with the pause-at-home switches |
| StatusDecoder.PauseSwitchesBothOn | libindi/drivers/telescope/lx200_TeenAstro.cpp:1114-1123 | a reply with 'u' followed by one without leaves both pause-at-home switches on |
| StatusDecoder.FirstReadPark | libindi/drivers/telescope/lx200_TeenAstro.cpp:1031-1061 | park flag, motion state and park label after a first read, including the unchanged tracking state when no park marker is present |
| StatusDecoder.LaterReadPark | libindi/drivers/telescope/lx200_TeenAstro.cpp:1062-1102 | park flag, motion state and park label after a later read: 'P' alone while unparked parks, 'I' while unparked is Parking, 'F' or 'p' once parked unpark, and no park marker leaves the tracking state |
| StatusDecoder.ParkedAtHomeScenario | libindi/drivers/telescope/lx200_TeenAstro.cpp:1031-1149 | "PHS3" on a first read: parked, "At Home and Parked", PPS sync, limit-sense error |
| StatusDecoder.PierStep | libindi/drivers/telescope/lx200_TeenAstro.cpp:1153-1175 | a repeated pier reply changes nothing; otherwise only the previous reply and pier side change, the side only for E, W, N, ? |
| StatusDecoder.PierLetterDecodes | libindi/drivers/telescope/lx200_TeenAstro.cpp:1157-1174 | E gives East, W West, N or ? Unknown |
| StatusDecoder.StatusStepIdempotent | libindi/drivers/telescope/lx200_TeenAstro.cpp:1001-1005 | the same status reply twice has the effect of once |
| StatusDecoder.PierStepIdempotent | libindi/drivers/telescope/lx200_TeenAstro.cpp:1153-1156 | the same pier reply twice has the effect of once |
| StatusDecoder.GuardsCommute | libindi/drivers/telescope/lx200_TeenAstro.h:166-171 | the status and pier guards use separate buffers, so their steps commute |
| StatusDecoder.Poll | libindi/drivers/telescope/lx200_TeenAstro.cpp:1001-1175 | one poll records both replies, keeps first read only on a repeated status, and keeps buffers bounded |
| StatusDecoder.FirstReadAtMostOnce | libindi/drivers/telescope/lx200_TeenAstro.cpp:1031-1060 | over any run of polls the first-read branch runs at most once, and never after it is cleared |
| StatusDecoder.RunStaysBounded | libindi/drivers/telescope/lx200_TeenAstro.h:39-49 | every stored reply stays within `RB_MAX_LEN` over any run of polls |
| Alignment.FindOnIndex | libindi/drivers/telescope/lx200_TeenAstro.cpp:809 | the index of the first switch on, -1 exactly when none is |
| Alignment.WireStars | libindi/drivers/telescope/lx200_TeenAstro.cpp:810-812 | star index 0..4 sends 1..5, 5 sends 9, 6 sends 7, anything else sends nothing |
| Alignment.SelectorMatchesRange | libindi/drivers/telescope/lx200_TeenAstro.h:152 | with 7 switches, a count is chosen exactly when some switch is on |
| Alignment.WireStarsInjective | libindi/drivers/telescope/lx200_TeenAstro.cpp:810-812 | distinct selector indices send distinct counts |
| Alignment.Clamp | libindi/drivers/telescope/lx200_TeenAstro.cpp:1396-1399 | the count is the request or the maximum, and exceeds neither |
| Alignment.StartCommand | libindi/drivers/telescope/lx200_TeenAstro.cpp:1400 | `:A%.1d#` in 8 bytes: ":A" prefix, and ":A" digit "#" for 0..9 |
| Alignment.StartCommandRoundTrip | libindi/drivers/telescope/lx200_TeenAstro.cpp:1400 | the count read back from a one-digit start command is the count sent |
| Alignment.StartAlign | libindi/drivers/telescope/lx200_TeenAstro.cpp:1376-1404 | texts published; a failed query is ALERT with nothing started; else BUSY sending the clamped count |
| Alignment.StartClampsToMaximum | libindi/drivers/telescope/lx200_TeenAstro.cpp:1395-1400 | asking 7 stars of a controller allowing 5 sends ":A5#" |
| Alignment.SixStarSwitchSendsNine | libindi/drivers/telescope/lx200_TeenAstro.cpp:811-816 | the "6 Stars" switch starts a 9-star alignment |
| Alignment.AddStar | libindi/drivers/telescope/lx200_TeenAstro.cpp:1407-1416 | recording a star sends ":A+#" and is always BUSY |
| Alignment.FinishAlign | libindi/drivers/telescope/lx200_TeenAstro.cpp:1535-1552 | writing the alignment sends ":AW#", is always OK, and publishes the finished texts |
| Alignment.ProgressTextIsNotCompleted | libindi/drivers/telescope/lx200_TeenAstro.cpp:1458-1467 | the in-progress text can never read as the completed text |
| Alignment.StarTextOfDigit | libindi/drivers/telescope/lx200_TeenAstro.cpp:1445-1450 | a digit's value printed back is that digit |
| Alignment.UpdateStatus | libindi/drivers/telescope/lx200_TeenAstro.cpp:1418-1474 | a failed query changes nothing; else the three numbers are shown, and the status is the completed text with one polar refresh exactly when current > required, and otherwise the progress message |
| Alignment.ProgressTextOfDigits | libindi/drivers/telescope/lx200_TeenAstro.cpp:1458-1460 | for a reply of at most three characters and one-digit stars the progress message is the reply, " Manual Align: Star ", and the two digits around '/' |
| Alignment.HighByteIsNotCompletion | libindi/drivers/telescope/lx200_TeenAstro.cpp:1442-1467 | a current-star byte 0xB0 reads as -128, so the poll shows "-128", reports progress and refreshes nothing |
| Alignment.HighByteMaximumClampsNegative | libindi/drivers/telescope/lx200_TeenAstro.cpp:1394-1400 | a maximum byte 0xB0 reads as -128, and a request for 9 stars sends ":A-128#" |
| Alignment.RefreshesMatchCompletions | libindi/drivers/telescope/lx200_TeenAstro.cpp:1458-1468 | over any series of polls, one polar refresh per reply reporting completion |
| Alignment.AlignSwitch | libindi/drivers/telescope/lx200_TeenAstro.cpp:787-831 | per button the commands sent in order and the resulting state; a start with a count chosen sends the clamped start command between two status queries and publishes the start texts; writing publishes "Align FINISHED Written to EEprom" and "------"; every other press leaves the four texts as they were; every press ends with a status poll |
| NumberSettings.TruncToInt | libindi/drivers/telescope/lx200_TeenAstro.cpp:400 | `(int)` truncates toward zero |
| NumberSettings.Collect | libindi/drivers/telescope/lx200_TeenAstro.cpp:382-397 | the scan keeps the last value per name and counts the in-range entries |
| NumberSettings.OneEachValidIffBothInRange | libindi/drivers/telescope/lx200_TeenAstro.cpp:382-398 | one entry per name is valid exactly when both values are in range |
| NumberSettings.RepeatedNamePassesCheck | libindi/drivers/telescope/lx200_TeenAstro.cpp:382-398 | one name sent twice in range passes the check, leaving the other value 0 |
| NumberSettings.BacklashCommand | libindi/drivers/telescope/lx200_TeenAstro.cpp:400-408 | for 0..999 the command is ":$B", the axis, digits reading back as the value, "#" |
| NumberSettings.MeridianCommand | libindi/drivers/telescope/lx200_TeenAstro.cpp:502-510 | for 0..999 the command is ":SXE", the code, ",", digits reading back as the value, "#" |
| NumberSettings.SetBacklash | libindi/drivers/telescope/lx200_TeenAstro.cpp:376-427 | invalid input sends nothing and is ALERT; valid input sends DEC then RA and ends OK whatever the acks |
| NumberSettings.SetMeridianLimits | libindi/drivers/telescope/lx200_TeenAstro.cpp:478-529 | invalid input sends nothing and is ALERT; valid input sends East then West and ends OK whatever the acks |
| NumberSettings.MaxElevationCommand | libindi/drivers/telescope/lx200_TeenAstro.cpp:1350-1359 | for 0..99 the command is ":So", two digits reading back as the value, "#" |
| NumberSettings.SetElevationLimits | libindi/drivers/telescope/lx200_TeenAstro.cpp:429-475 | invalid input sends nothing and is IDLE; valid input sets min then max, and is ALERT exactly when max fails |
| NumberSettings.ElevationMinFortyRejected | libindi/drivers/telescope/lx200_TeenAstro.cpp:438-442 | a minimum of 40 degrees fails validation |
| NumberSettings.SlewRateCommand | libindi/drivers/telescope/lx200_TeenAstro.cpp:355-357 | the 4-byte buffer drops the '#': three characters, ":R" and the first digit |
| NumberSettings.SetMaxSlewRate | libindi/drivers/telescope/lx200_TeenAstro.cpp:353-374 | the rate handler always ends OK with the value, since a bool never equals -1 |
| NumberSettings.DateCommand | libindi/drivers/telescope/lx200_TeenAstro.cpp:1264-1269 | for day and month < 100: month, day and two-digit year read back from fixed positions |
| NumberSettings.DateFields | libindi/drivers/telescope/lx200_TeenAstro.cpp:1268 | the `:SC%02d/%02d/%02d#` layout puts the three two-digit fields at positions 3, 6 and 9 |
| NumberSettings.SetLocalDate | libindi/drivers/telescope/lx200_TeenAstro.cpp:1264-1273 | the date is accepted exactly when the answer is not '0'; a failed write is a rejection; with no answer it is a rejection exactly when the read's tty code is nonzero |
| SwitchSettings.Attempt | libindi/drivers/telescope/lx200_TeenAstro.cpp:593-632 | the walk stops at the first switch on whose send succeeds, having sent every on switch's command up to it |
| SwitchSettings.Dispatch | libindi/drivers/telescope/lx200_TeenAstro.cpp:593-774 | OK with the winner's message exactly when some switch wins; otherwise all sent, switches reset, handler fallback state |
| SwitchSettings.FirstWinnerUnique | libindi/drivers/telescope/lx200_TeenAstro.cpp:593-632 | at most one switch is the first to succeed |
| SwitchSettings.SuccessPolarityOpposed | libindi/drivers/telescope/lx200_TeenAstro.cpp:593-774 | tracking compensation succeeds on an answer other than '0'; auto flip, pause at home and pier side only on '0' |
| SwitchSettings.FrequencyAdjustNeverSucceeds | libindi/drivers/telescope/lx200_TeenAstro.cpp:701-736 | every selected frequency command is sent and the handler always falls back to IDLE with switches reset |
| SwitchSettings.HomePauseContinueResets | libindi/drivers/telescope/lx200_TeenAstro.cpp:686-694 | an accepted "continue" sends ":SX99,1#" and resets the switches |
| SwitchSettings.AutoFlipRefusedStaysBusy | libindi/drivers/telescope/lx200_TeenAstro.cpp:633-660 | a refused auto-flip change leaves the property BUSY |
| SwitchSettings.SetHome | libindi/drivers/telescope/lx200_TeenAstro.cpp:567-590 | sends ":hC#" or ":hF#", turns that switch off, resets the reticle switches, ends IDLE |

## Left out

- Serial I/O (`tcflush`, `tty_write_string`, `tty_read`, `getCommandString`) is not modelled. Replies and write outcomes are parameters.
- The INDI property framework (`IUFill*`, `IDSet*`, property definition and deletion, `IUUpdateSwitch`) is not modelled. A switch handler takes the switch vector as updated, and the alignment button handler's early `false` return on a failed update is not modelled.
- The star selector handler (778-785) only updates switches through the framework.
- `nanosleep` between two commands (406-407, 508-509) only affects timing.
- Floating-point code is not modelled: the `atof` readbacks after each poll, `UpdateAlignErr` with `strtold` and `fs_sexa`, `updateLocation`, `SetTrackRate`, and `setSiteLongitude`. The polar-error refresh is counted, not computed.
- The alignment status poll that `ReadScopeStatus` runs on every cycle (1233) is not modelled as part of `Poll`; the `UpdateAlignStatus` it calls is modelled on its own in `Alignment.UpdateStatus`.
- Alignment.RefreshesMatchCompletions: counts only the refresh inside `UpdateAlignStatus` (1467). The unconditional polar-error refresh at the end of every `ReadScopeStatus` cycle (1234) is not modelled, so a real cycle refreshes once more than this count.
- The `:GX95#` automatic-flip readback (`atoi`, 1190-1200) and the `:GX96#` preferred-pier readback (`strstr` on W, E, B, 1202-1220) of `ReadScopeStatus` are not modelled; the handlers that set those switches are.
- The base class's `SetParked`, `isParked`, `setPierSide` and `TrackState` are modelled as plain fields. `SetParked` moves the motion state to Parked, or to Idle when unparking as the comment at 1040 says; `Park`, `UnPark`, `SetCurrentPark` and `SetTrackEnabled` are not modelled.
- Catalogs, reticle brightness, and the `TeenAstro_NOTDONE` output code are not modelled.
- `setMinElevationLimit` is generic LX200 library code that is not part of this model. It appears as a request with its integer outcome.
- `StatusDecoder.StatusStep` requires a changed status reply to be non-empty. The source indexes it at `strlen - 1`, which reads before the buffer when the reply is empty.
- NaN submitted to a number handler is not modelled.
- The previous-reply buffers are never initialised in the constructor; the model starts them empty.
- Reply bytes past the terminator in `UpdateAlignStatus` are uninitialised in the source; the model reads them as NUL.
- `Alignment.StartAlign` does not model the start command's own write outcome, because the source ignores it.
- `NumberSettings.SetMaxSlewRate` takes the first submitted value and ignores element names, as the source does.
- StatusDecoder.FirstReadAtMostOnce: stated over runs whose every status reply is non-empty. An empty reply that repeats an empty previous reply is skipped by the guard and is harmless in the source, but such runs are not covered.
- StatusDecoder.RunStaysBounded: stated over the same runs of non-empty status replies, for the same reason.
- Alignment.UpdateStatus: the `:GX02#` and `:GX03#` queries of the polar-error refresh (1476-1530) are not in `sent`; the refresh is counted instead.
- NumberSettings.TruncToInt: a value outside the range of `int` is undefined behaviour in C; the model truncates it without bound.
- CString.SignedChar: a character beyond one byte keeps only its low byte. The driver's buffers hold bytes, so such characters do not occur there.

=== FILE: alignment.dfy ===
/** The multi-star alignment sequence: choosing the star count, starting the
    alignment clamped to the controller's maximum, recording a star,
    writing the alignment, and decoding the `:A?#` progress reply.

    Wire commands the driver writes are collected, in order, in a `sent`
    list; replies and write outcomes are inputs. The polar-error refresh
    (`UpdateAlignErr`) is counted, not modelled. */
module Alignment {
  import opened Basics
  import opened CString
  import opened Channel

  /** Number of switches in the star-count selector. */
  const STAR_SWITCHES: nat := 7

  /** The align status query. */
  const STATUS_QUERY: string := ":A?#"

  const COMPLETED_TEXT: string := "Manual Align: Completed"

  /** The first switch of a vector that is on, or -1 when none is
      (`IUFindOnSwitchIndex`). */
  function FindOnIndex(sw: seq<bool>): (k: int)
    ensures -1 <= k < |sw|
    ensures k == -1 <==> true !in sw
    ensures 0 <= k ==> sw[k] && true !in sw[..k]
  {
    if sw == [] then -1
    else if sw[0] then 0
    else
      var k := FindOnIndex(sw[1..]);
      if k == -1 then -1
      else
        assert sw[..k + 1] == [sw[0]] + sw[1..][..k];
        k + 1
  }

  /** The star count sent for a selected switch: index i stands for i + 1
      stars, except that index 5 ("6 Stars") sends 9 and index 6 ("9 Stars")
      sends 7. Outside 0..6 nothing is started. */
  function WireStars(index: int): (r: Option<int>)
    ensures r.Some? <==> 0 <= index <= 6
    ensures 0 <= index <= 4 ==> r == Some(index + 1)
    ensures index == 5 ==> r == Some(9)
    ensures index == 6 ==> r == Some(7)
  {
    if 0 <= index <= 6 then
      var stars := index + 1;
      Some(if stars == 6 then 9 else stars)
    else None
  }

  /** The index range accepted before starting is exactly the set of indices
      the seven-switch selector can report: a start happens iff some switch
      is on. */
  lemma SelectorMatchesRange(sw: seq<bool>)
    requires |sw| == STAR_SWITCHES
    ensures WireStars(FindOnIndex(sw)).Some? <==> true in sw
  {
  }

  /** Distinct switches send distinct star counts. */
  lemma WireStarsInjective(i: int, j: int)
    requires 0 <= i <= 6 && 0 <= j <= 6 && i != j
    ensures WireStars(i) != WireStars(j)
  {
  }

  /** The texts of the align tab (`OSNAlignT[0..7]`). */
  datatype AlignPanel = AlignPanel(
    process: string,
    manual: string,
    solver: string,
    action: string,
    status: string,
    maxStars: string,
    currentStar: string,
    alignStars: string)

  /** The star count actually started: the request, lowered to the maximum
      when it exceeds it. */
  function Clamp(stars: int, max: int): (n: int)
    ensures n <= max && n <= stars
    ensures n == stars || n == max
  {
    if stars > max then max else stars
  }

  /** `:A%.1d#` in an 8-byte buffer. */
  function StartCommand(n: int): (cmd: string)
    ensures 2 <= |cmd| <= 7 && cmd[..2] == ":A"
    ensures 0 <= n <= 9 ==> cmd == [':', 'A', DigitChar(n), '#']
  {
    Truncate(":A" + Dec(n) + "#", 8)
  }

  /** The star count a one-digit start command carries. */
  function StartCount(cmd: string): int
    requires |cmd| == 4
  {
    DigitValue(cmd[2])
  }

  /** Reading the count back from a start command gives the count sent. */
  lemma StartCommandRoundTrip(n: int)
    requires 0 <= n <= 9
    ensures |StartCommand(n)| == 4 && StartCount(StartCommand(n)) == n
  {
  }

  /** The maximum star count: the first reply character minus '0'
      (lx200_TeenAstro.cpp:1394). */
  function MaxStars(reply: string): int
  {
    DigitValue(CharAt(reply, 0))
  }

  datatype StartResult = StartResult(state: IPState, panel: AlignPanel, sent: seq<string>)

  /** `AlignStartGeometric`: publish the instructions, query the maximum
      star count, and send the start command for the clamped count. A failed
      query ends in ALERT with nothing started; otherwise the result is BUSY
      whatever the blind write reports. */
  function StartAlign(panel: AlignPanel, stars: int, query: Query, writeCode: int): (r: StartResult)
    ensures r.panel == panel.(process := "Align STARTED", manual := "GOTO a star, center it",
                              solver := "GOTO a star, Solve and Sync", action := "Press 'Issue Align'")
    ensures query.QueryFailed? ==> r.state == Alert && r.sent == [STATUS_QUERY]
    ensures query.Answered? ==>
      && r.state == Busy
      && r.sent == [STATUS_QUERY, StartCommand(Clamp(stars, MaxStars(query.text)))]
  {
    var p := panel.(process := "Align STARTED", manual := "GOTO a star, center it",
                    solver := "GOTO a star, Solve and Sync", action := "Press 'Issue Align'");
    match query
    case QueryFailed => StartResult(Alert, p, [STATUS_QUERY])
    case Answered(text) =>
      var max := MaxStars(text);
      var n := if stars > max then max else stars;
      var _ := SendBlind(writeCode);
      StartResult(Busy, p, [STATUS_QUERY, StartCommand(n)])
  }

  /** Asking for 7 stars of a controller whose maximum is 5 starts 5. */
  lemma StartClampsToMaximum(panel: AlignPanel, text: string, writeCode: int)
    requires |text| > 0 && text[0] == '5'
    ensures StartAlign(panel, 7, Answered(text), writeCode).sent == [STATUS_QUERY, ":A5#"]
  {
  }

  /** The "6 Stars" switch starts 9 stars on a controller that allows 9. */
  lemma SixStarSwitchSendsNine(panel: AlignPanel, text: string, writeCode: int)
    requires |text| > 0 && text[0] == '9'
    ensures StartAlign(panel, WireStars(5).value, Answered(text), writeCode).sent == [STATUS_QUERY, ":A9#"]
  {
  }

  /** `AlignAddStar`: send `:A+#` blind. The blind sender never reports
      failure, so the result is always BUSY. */
  function AddStar(writeCode: int): (r: (IPState, seq<string>))
    ensures r.0 == Busy && r.1 == [":A+#"]
  {
    (if SendBlind(writeCode) then Busy else Alert, [":A+#"])
  }

  /** `AlignDone`: publish the finished texts and send `:AW#` blind; the
      write-failed branch is unreachable for the same reason, so the result
      is always OK. */
  function FinishAlign(panel: AlignPanel, writeCode: int): (r: (IPState, AlignPanel, seq<string>))
    ensures r.0 == Ok && r.2 == [":AW#"]
    ensures r.1 == panel.(process := "Align FINISHED Written to EEprom",
                          manual := "------", solver := "------", action := "------")
  {
    var p := panel.(process := "Align FINISHED Written to EEprom",
                    manual := "------", solver := "------", action := "------");
    if SendBlind(writeCode) then (Ok, p, [":AW#"])
    else (Alert, p.(process := "Align WRITE FAILED"), [":AW#"])
  }

  /** The progress message of lx200_TeenAstro.cpp:1460: the raw reply, then
      "Manual Align: Star c/q", in a 40-byte buffer. */
  function ProgressText(reply: string, current: int, required: int): string
  {
    Truncate(reply + " Manual Align: Star " + Dec(current) + "/" + Dec(required), 40)
  }

  /** For a three-character reply of digits the progress message is
      not truncated: it shows the reply and the two star numbers in full. */
  lemma ProgressTextOfDigits(reply: string, current: int, required: int)
    requires |reply| <= 3 && 0 <= current <= 9 && 0 <= required <= 9
    ensures ProgressText(reply, current, required)
         == reply + " Manual Align: Star " + [DigitChar(current), '/', DigitChar(required)]
  {
    var full := reply + " Manual Align: Star " + Dec(current) + "/" + Dec(required);
    assert full == reply + " Manual Align: Star " + [DigitChar(current), '/', DigitChar(required)];
  }

  /** A progress message is never the completion message, so the two
      outcomes of a status poll can always be told apart. */
  lemma ProgressTextIsNotCompleted(reply: string, current: int, required: int)
    ensures ProgressText(reply, current, required) != COMPLETED_TEXT
  {
    var full := reply + " Manual Align: Star " + Dec(current) + "/" + Dec(required);
    assert |full| >= |reply| + 23;
    if |reply| == 0 {
      assert full[0] == ' ';
      assert ProgressText(reply, current, required)[0] == ' ';
    }
  }

  /** The published text of a star number: `%d` in a 5-byte buffer
      (lx200_TeenAstro.cpp:1445-1450). */
  function StarText(n: int): string
  {
    Truncate(Dec(n), 5)
  }

  /** A digit reply character is published as itself. */
  lemma StarTextOfDigit(c: char)
    requires IsDigit(c)
    ensures StarText(DigitValue(c)) == [c]
  {
    assert Dec(DigitValue(c)) == [DigitChar(DigitValue(c))];
  }

  datatype StatusResult = StatusResult(ok: bool, panel: AlignPanel, refreshes: nat, sent: seq<string>)

  /** `UpdateAlignStatus`: query `:A?#` and read maximum, current and
      required star from characters 0, 1 and 2 minus '0', with no digit
      check. While current <= required the alignment is in progress;
      beyond it the alignment is reported completed and the polar error is
      refreshed once. A failed query changes nothing. */
  function UpdateStatus(panel: AlignPanel, query: Query): (r: StatusResult)
    ensures r.sent == [STATUS_QUERY]
    ensures r.ok <==> query.Answered?
    ensures query.QueryFailed? ==> r.panel == panel && r.refreshes == 0
    ensures query.Answered? ==>
      var t := query.text;
      var current := DigitValue(CharAt(t, 1));
      var required := DigitValue(CharAt(t, 2));
      && r.refreshes == (if current > required then 1 else 0)
      && (r.panel.status == COMPLETED_TEXT <==> current > required)
      && (current <= required ==> r.panel.status == ProgressText(t, current, required))
      && r.panel.maxStars == StarText(MaxStars(t))
      && r.panel.currentStar == StarText(current)
      && r.panel.alignStars == StarText(required)
      && r.panel.(status := panel.status, maxStars := panel.maxStars,
                  currentStar := panel.currentStar, alignStars := panel.alignStars) == panel
  {
    match query
    case QueryFailed => StatusResult(false, panel, 0, [STATUS_QUERY])
    case Answered(t) =>
      var max := DigitValue(CharAt(t, 0));
      var current := DigitValue(CharAt(t, 1));
      var required := DigitValue(CharAt(t, 2));
      var p := panel.(maxStars := StarText(max), currentStar := StarText(current),
                      alignStars := StarText(required));
      if current <= required then
        ProgressTextIsNotCompleted(t, current, required);
        StatusResult(true, p.(status := ProgressText(t, current, required)), 0, [STATUS_QUERY])
      else
        StatusResult(true, p.(status := COMPLETED_TEXT), 1, [STATUS_QUERY])
  }

  /** Reply characters are signed: a byte 0xB0 in the current-star position
      reads as 0xB0 - 256 - '0' = -128, which is not beyond a required star
      of 5, so the poll reports progress and refreshes nothing. */
  lemma HighByteIsNotCompletion(panel: AlignPanel)
    ensures var r := UpdateStatus(panel, Answered(['0', 0xB0 as char, '5']));
      && r.panel.currentStar == "-128" && r.refreshes == 0 && r.panel.status != COMPLETED_TEXT
  {
    assert DigitValue(0xB0 as char) == -128;
    assert Dec(-128) == "-128" by {
      assert Digits(128) == "128" by {
        assert Digits(12) == "12";
      }
    }
  }

  /** A maximum read from a high byte is negative, and the request is
      clamped down to it. */
  lemma HighByteMaximumClampsNegative(panel: AlignPanel, writeCode: int)
    ensures StartAlign(panel, 9, Answered([0xB0 as char]), writeCode).sent == [STATUS_QUERY, ":A-128#"]
  {
    assert MaxStars([0xB0 as char]) == -128;
    assert Dec(-128) == "-128" by {
      assert Digits(128) == "128" by {
        assert Digits(12) == "12";
      }
    }
    assert ":A" + Dec(-128) + "#" == ":A-128#";
    assert StartCommand(-128) == ":A-128#";
  }

  /** Whether a status reply reports the alignment completed. */
  predicate ReportsCompleted(query: Query)
  {
    query.Answered? && DigitValue(CharAt(query.text, 1)) > DigitValue(CharAt(query.text, 2))
  }

  /** How many replies of a series report completion. */
  function CompletedCount(queries: seq<Query>): nat
  {
    if queries == [] then 0
    else (if ReportsCompleted(queries[0]) then 1 else 0) + CompletedCount(queries[1..])
  }

  /** The align tab and the number of polar-error refreshes after a series
      of status polls. */
  function PollSeries(panel: AlignPanel, queries: seq<Query>): (AlignPanel, nat)
    decreases |queries|
  {
    if queries == [] then (panel, 0)
    else
      var r := UpdateStatus(panel, queries[0]);
      var rest := PollSeries(r.panel, queries[1..]);
      (rest.0, r.refreshes + rest.1)
  }

  /** Over any series of polls, the polar error is refreshed exactly once
      per reply that reports completion. */
  lemma {:induction false} RefreshesMatchCompletions(panel: AlignPanel, queries: seq<Query>)
    ensures PollSeries(panel, queries).1 == CompletedCount(queries)
    decreases |queries|
  {
    if queries != [] {
      RefreshesMatchCompletions(UpdateStatus(panel, queries[0]).panel, queries[1..]);
    }
  }

  datatype AlignSwitchResult = AlignSwitchResult(state: IPState, panel: AlignPanel, refreshes: nat, sent: seq<string>)

  /** The align buttons: 0 starts with the selected star count (when a star
      switch is on), 1 records a star, 2 writes the alignment; every press
      then polls the align status. The start result is not kept: the
      property stays BUSY. */
  function AlignSwitch(action: int, starSwitches: seq<bool>, panel: AlignPanel,
                       startQuery: Query, statusQuery: Query, writeCode: int): (r: AlignSwitchResult)
    requires |starSwitches| == STAR_SWITCHES
    ensures action == 0 && true !in starSwitches ==> r.sent == [STATUS_QUERY]
    ensures action == 0 && true in starSwitches && startQuery.QueryFailed? ==> r.sent == [STATUS_QUERY, STATUS_QUERY]
    ensures action == 0 && true in starSwitches && startQuery.Answered? ==>
      r.sent == [STATUS_QUERY,
                 StartCommand(Clamp(WireStars(FindOnIndex(starSwitches)).value, MaxStars(startQuery.text))),
                 STATUS_QUERY]
    ensures action == 0 && true in starSwitches ==>
      && r.panel.process == "Align STARTED" && r.panel.manual == "GOTO a star, center it"
      && r.panel.solver == "GOTO a star, Solve and Sync" && r.panel.action == "Press 'Issue Align'"
    ensures action == 0 ==> r.state == Busy
    ensures action == 1 ==> r.state == Busy && r.sent == [":A+#", STATUS_QUERY]
    ensures action == 2 ==> r.state == Ok && r.sent == [":AW#", STATUS_QUERY]
    ensures action == 2 ==>
      && r.panel.process == "Align FINISHED Written to EEprom" && r.panel.manual == "------"
      && r.panel.solver == "------" && r.panel.action == "------"
    ensures action != 2 && !(action == 0 && true in starSwitches) ==>
      && r.panel.process == panel.process && r.panel.manual == panel.manual
      && r.panel.solver == panel.solver && r.panel.action == panel.action
    ensures action !in {0, 1, 2} ==> r.state == Busy && r.sent == [STATUS_QUERY]
    ensures r.refreshes == (if ReportsCompleted(statusQuery) then 1 else 0)
  {
    var (state, p, sent) :=
      if action == 0 then
        match WireStars(FindOnIndex(starSwitches))
        case Some(stars) =>
          var s := StartAlign(panel, stars, startQuery, writeCode);
          (Busy, s.panel, s.sent)
        case None => (Busy, panel, [])
      else if action == 1 then
        var a := AddStar(writeCode);
        (a.0, panel, a.1)
      else if action == 2 then FinishAlign(panel, writeCode)
      else (Busy, panel, []);
    var u := UpdateStatus(p, statusQuery);
    AlignSwitchResult(state, u.panel, u.refreshes, sent + u.sent)
  }
}

=== FILE: basics.dfy ===
/** Small shared datatypes: an optional value and the status lamp that every
    published property of the driver carries. */
module Basics {

  /** The conventional Some/None datatype. */
  datatype Option<+T> = None | Some(value: T)

  /** The four states of a published property (`IPS_IDLE`, `IPS_OK`,
      `IPS_BUSY`, `IPS_ALERT`). */
  datatype IPState = Idle | Ok | Busy | Alert
}

=== FILE: channel.dfy ===
/** The two command senders of the driver and the reply of a string query.

    The serial port itself is not modelled: the outcome of each write and
    read is an input. A tty status code is an `int` with `TTY_OK` = 0, and
    both senders are declared `bool` while returning that `int` on their
    error paths, so a nonzero code reads as `true`. */
module Channel {

  /** The tty layer's success code. */
  const TTY_OK: int := 0

  /** C's conversion of an `int` to `bool`. */
  function AsBool(code: int): bool
  {
    code != 0
  }

  /** What the one-byte read of a confirmed command produced: the byte, or
      fewer than one byte together with the tty layer's status code. */
  datatype ReadResult = GotByte(b: char) | ReadFailed(code: int)

  /** The outcome of one confirmed exchange: the status code of the write,
      and what the read that follows a successful write produced. */
  datatype Ack = Ack(writeCode: int, read: ReadResult)

  /** What a string query (`getCommandString`) produced: the reply text, or
      a nonzero status because the read failed. */
  datatype Query = Answered(text: string) | QueryFailed

  /** `sendTeenAstroCommandBlind`: flush, write, and report. A failed write
      returns its nonzero status code through `bool`, so the result is
      `true` on both paths. */
  function SendBlind(writeCode: int): (ok: bool)
    ensures ok
  {
    if writeCode != TTY_OK then AsBool(writeCode) else true
  }

  /** `sendTeenAstroCommand`: flush, write, read one byte, flush, and report
      whether the byte was the character '0'. A failed write or a short read
      returns the tty status code through `bool`. */
  function SendConfirmed(ack: Ack): (ok: bool)
    ensures ack.writeCode == TTY_OK && ack.read.GotByte? ==> (ok <==> ack.read.b == '0')
    ensures ack.writeCode != TTY_OK ==> ok
    ensures ack.writeCode == TTY_OK && ack.read.ReadFailed? ==> (ok <==> ack.read.code != TTY_OK)
  {
    if ack.writeCode != TTY_OK then AsBool(ack.writeCode)
    else
      match ack.read
      case GotByte(b) => b == '0'
      case ReadFailed(code) => AsBool(code)
  }

  /** A read that fails with an error code is reported exactly like the byte
      '0', and a failed write likewise: the caller cannot tell them apart. */
  lemma FailureIndistinguishableFromZero(code: int, c: char)
    requires code != TTY_OK
    ensures SendConfirmed(Ack(TTY_OK, ReadFailed(code))) == SendConfirmed(Ack(TTY_OK, GotByte('0')))
    ensures SendConfirmed(Ack(code, GotByte(c))) == SendConfirmed(Ack(TTY_OK, GotByte('0')))
  {
  }
}

=== FILE: cstring.dfy ===
/** The C string and `printf` behaviour the driver relies on: NUL-terminated
    buffers of `RB_MAX_LEN` bytes, single-character `strstr` tests, `c - '0'`
    digit decoding, `%d` / `%02d` formatting and `snprintf` truncation. */
module CString {

  /** Size of every reply and status buffer in the driver (`RB_MAX_LEN`). */
  const RB_MAX_LEN: nat := 64

  const NUL: char := 0 as char

  /** A string that a NUL-terminated buffer of `RB_MAX_LEN` bytes can hold:
      no embedded NUL, and room left for the terminator. */
  predicate FitsBuffer(s: string)
  {
    NUL !in s && |s| < RB_MAX_LEN
  }

  /** Byte `i` of a buffer that holds `s` followed by its terminator. Bytes
      beyond the terminator are taken to be NUL as well. */
  function CharAt(s: string, i: nat): (c: char)
    ensures FitsBuffer(s) ==> (c == NUL <==> |s| <= i)
  {
    if i < |s| then s[i] else NUL
  }

  /** A character of a reply buffer read as C's signed `char` (as on x86
      Linux): the buffer keeps only the low byte, and bytes 0x80..0xFF are
      negative. */
  function SignedChar(c: char): (v: int)
    ensures -128 <= v < 128
    ensures c as int < 128 ==> v == c as int
    ensures (v - c as int) % 256 == 0
  {
    var b := c as int % 256;
    if b < 128 then b else b - 256
  }

  /** `c - '0'` on a signed `char`, with no check that `c` is a digit, as
      the reply decoding does (lx200_TeenAstro.cpp:1138, 1394, 1442-1444). */
  function DigitValue(c: char): (v: int)
    ensures IsDigit(c) ==> 0 <= v <= 9
    ensures -176 <= v <= 79
  {
    SignedChar(c) - '0' as int
  }

  function DigitChar(d: nat): (c: char)
    requires d < 10
    ensures '0' <= c <= '9'
    ensures DigitValue(c) == d
  {
    ('0' as int + d) as char
  }

  predicate IsDigit(c: char)
  {
    '0' <= c <= '9'
  }

  predicate AllDigits(s: string)
  {
    forall i :: 0 <= i < |s| ==> IsDigit(s[i])
  }

  /** The number a string of decimal digits denotes (most significant first). */
  function ValueOf(s: string): nat
    requires AllDigits(s)
  {
    if s == [] then 0
    else ValueOf(s[..|s| - 1]) * 10 + DigitValue(s[|s| - 1])
  }

  /** Decimal digits of a natural number, without leading zeros. */
  function Digits(n: nat): (r: string)
    ensures 1 <= |r|
    ensures AllDigits(r)
    ensures ValueOf(r) == n
    ensures |r| == 1 <==> n < 10
    ensures r[0] == '0' ==> n == 0
  {
    if n < 10 then [DigitChar(n)]
    else
      var prefix := Digits(n / 10);
      var r := prefix + [DigitChar(n % 10)];
      assert r[..|r| - 1] == prefix;
      r
  }

  /** `%d` (and `%.1d`, whose one-digit minimum is the default) of an int. */
  function Dec(n: int): (r: string)
    ensures n >= 0 ==> AllDigits(r) && ValueOf(r) == n && 1 <= |r|
    ensures n < 0 ==> 2 <= |r| && r[0] == '-' && AllDigits(r[1..]) && ValueOf(r[1..]) == -n
    ensures NUL !in r && '#' !in r
  {
    if n >= 0 then Digits(n)
    else
      var r := "-" + Digits(-n);
      assert r[1..] == Digits(-n);
      r
  }

  /** `%02d`: at least two characters, zero-padded on the left. A negative
      number already has two characters with its sign, so it is not padded. */
  function Pad2(n: int): (r: string)
    ensures 0 <= n < 100 ==> |r| == 2 && AllDigits(r) && ValueOf(r) == n
    ensures (n < 0 || 10 <= n) ==> r == Dec(n)
    ensures 2 <= |r|
    ensures NUL !in r && '#' !in r && '/' !in r
  {
    if 0 <= n < 10 then
      var r := "0" + Dec(n);
      assert r[..1] == "0";
      r
    else Dec(n)
  }

  /** `snprintf(buf, size, ...)`: at most `size - 1` characters are kept. */
  function Truncate(s: string, size: nat): (r: string)
    requires 0 < size
    ensures |r| < size
    ensures |r| <= |s| && r == s[..|r|]
    ensures |s| < size ==> r == s
    ensures size <= |s| ==> |r| == size - 1
  {
    if |s| < size then s else s[..size - 1]
  }

  /** `strstr(s, [a, b])` is non-null: the two characters occur adjacently. */
  predicate HasPair(s: string, a: char, b: char)
  {
    exists i :: 0 <= i < |s| - 1 && s[i] == a && s[i + 1] == b
  }

  /** An adjacent pair implies that each character occurs on its own. */
  lemma HasPairImpliesBoth(s: string, a: char, b: char)
    requires HasPair(s, a, b)
    ensures a in s && b in s
  {
    var i :| 0 <= i < |s| - 1 && s[i] == a && s[i + 1] == b;
    assert s[i + 1] == b;
  }
}

=== FILE: number_settings.dfy ===
/** The number-property handlers of the driver (backlash, meridian limits,
    elevation limits, maximum slew rate) and the date command: input
    validation, the order of the commands written, and the status each
    handler ends in.

    Submitted values are doubles in the source and `real` here; `(int)` is
    truncation toward zero. */
module NumberSettings {
  import opened Basics
  import opened CString
  import opened Channel

  /** One element of a submitted number update: its name and value. */
  datatype Entry = Entry(name: string, value: real)

  /** A two-element number property: its values and its status. */
  datatype NumberPair = NumberPair(first: real, second: real, state: IPState)

  /** What a handler returns to the framework, the property it leaves, and
      the commands it wrote, in order. */
  datatype NumberReply = NumberReply(handled: bool, prop: NumberPair, sent: seq<string>)

  const BACKLASH_DEC: string := "Backlash DEC"
  const BACKLASH_RA: string := "Backlash RA"
  const MERIDIAN_EAST: string := "East"
  const MERIDIAN_WEST: string := "West"
  const ELEVATION_MIN: string := "minAlt"
  const ELEVATION_MAX: string := "maxAlt"

  predicate InRange(x: real, lo: real, hi: real)
  {
    lo <= x <= hi
  }

  /** C's `(int)` conversion: truncation toward zero. */
  function TruncToInt(x: real): (n: int)
    ensures 0.0 <= x ==> n as real <= x < n as real + 1.0
    ensures x < 0.0 ==> n as real - 1.0 < x <= n as real
  {
    if x >= 0.0 then x.Floor else -((-x).Floor)
  }

  /** The value of the last entry named `name`, or `default` when no entry
      has that name. */
  function LastValue(entries: seq<Entry>, name: string, default: real): real
    decreases |entries|
  {
    if entries == [] then default
    else if entries[|entries| - 1].name == name then entries[|entries| - 1].value
    else LastValue(entries[..|entries| - 1], name, default)
  }

  /** How many entries named `name` carry a value in [lo, hi]. */
  function CountInRange(entries: seq<Entry>, name: string, lo: real, hi: real): nat
    decreases |entries|
  {
    if entries == [] then 0
    else
      var e := entries[|entries| - 1];
      CountInRange(entries[..|entries| - 1], name, lo, hi)
      + (if e.name == name && InRange(e.value, lo, hi) then 1 else 0)
  }

  /** The scan shared by the two-value handlers: every entry whose name is
      `first` (else `second`) overwrites that value and counts once when in
      its range. Entries with other names are ignored. */
  method Collect(entries: seq<Entry>, first: string, second: string,
                 lo0: real, hi0: real, lo1: real, hi1: real)
    returns (v0: real, v1: real, nset: nat)
    requires first != second
    ensures v0 == LastValue(entries, first, 0.0)
    ensures v1 == LastValue(entries, second, 0.0)
    ensures nset == CountInRange(entries, first, lo0, hi0) + CountInRange(entries, second, lo1, hi1)
  {
    v0, v1, nset := 0.0, 0.0, 0;
    var i := 0;
    while i < |entries|
      invariant 0 <= i <= |entries|
      invariant v0 == LastValue(entries[..i], first, 0.0)
      invariant v1 == LastValue(entries[..i], second, 0.0)
      invariant nset == CountInRange(entries[..i], first, lo0, hi0)
                      + CountInRange(entries[..i], second, lo1, hi1)
    {
      var e := entries[i];
      assert entries[..i + 1][..i] == entries[..i];
      if e.name == first {
        v0 := e.value;
        if InRange(v0, lo0, hi0) {
          nset := nset + 1;
        }
      } else if e.name == second {
        v1 := e.value;
        if InRange(v1, lo1, hi1) {
          nset := nset + 1;
        }
      }
      i := i + 1;
    }
    assert entries[..|entries|] == entries;
  }

  /** Two entries with distinct names, one each, are valid exactly when
      both values are in range. */
  lemma OneEachValidIffBothInRange(n0: string, n1: string, a: real, b: real,
                                   lo0: real, hi0: real, lo1: real, hi1: real)
    requires n0 != n1
    ensures var entries := [Entry(n0, a), Entry(n1, b)];
      && (CountInRange(entries, n0, lo0, hi0) + CountInRange(entries, n1, lo1, hi1) == 2
          <==> InRange(a, lo0, hi0) && InRange(b, lo1, hi1))
      && LastValue(entries, n0, 0.0) == a && LastValue(entries, n1, 0.0) == b
  {
    var entries := [Entry(n0, a), Entry(n1, b)];
    var head := [Entry(n0, a)];
    assert entries[..1] == head && head[..0] == [];
    assert CountInRange(head, n0, lo0, hi0) == (if InRange(a, lo0, hi0) then 1 else 0);
    assert CountInRange(head, n1, lo1, hi1) == 0;
    assert LastValue(head, n1, 0.0) == 0.0;
  }

  /** The count is of in-range entries, not of distinct names: the same name
      submitted twice in range passes the check, and the missing value is
      sent as 0. */
  lemma RepeatedNamePassesCheck(n0: string, n1: string, a: real, b: real,
                                lo0: real, hi0: real, lo1: real, hi1: real)
    requires n0 != n1 && InRange(a, lo0, hi0) && InRange(b, lo0, hi0)
    ensures var entries := [Entry(n0, a), Entry(n0, b)];
      && CountInRange(entries, n0, lo0, hi0) + CountInRange(entries, n1, lo1, hi1) == 2
      && LastValue(entries, n0, 0.0) == b && LastValue(entries, n1, 0.0) == 0.0
  {
    var entries := [Entry(n0, a), Entry(n0, b)];
    var head := [Entry(n0, a)];
    assert entries[..1] == head && head[..0] == [];
    assert CountInRange(head, n0, lo0, hi0) == 1;
    assert CountInRange(head, n1, lo1, hi1) == 0;
    assert LastValue(head, n1, 0.0) == 0.0;
  }

  /** `:$BD%d#` / `:$BR%d#` in a 9-byte buffer. */
  function BacklashCommand(axis: char, n: int): (cmd: string)
    requires axis == 'D' || axis == 'R'
    ensures 0 <= n <= 999 ==>
      && 6 <= |cmd| <= 8 && cmd[..4] == [':', '$', 'B', axis] && cmd[|cmd| - 1] == '#'
      && AllDigits(cmd[4..|cmd| - 1]) && ValueOf(cmd[4..|cmd| - 1]) == n
  {
    var full := ":$B" + [axis] + Dec(n) + "#";
    if 0 <= n <= 999 then
      DigitsLength(n);
      assert full[4..|full| - 1] == Dec(n);
      Truncate(full, 9)
    else Truncate(full, 9)
  }

  /** A number below 1000 has at most three digits. */
  lemma DigitsLength(n: nat)
    requires n <= 999
    ensures |Digits(n)| <= 3
  {
    if n >= 10 {
      assert |Digits(n / 10)| <= 2 by {
        if n / 10 >= 10 {
          assert |Digits(n / 100)| == 1;
        }
      }
    }
  }

  /** `:SXE9,%d#` / `:SXEA,%d#` in a 20-byte buffer. */
  function MeridianCommand(code: char, n: int): (cmd: string)
    requires code == '9' || code == 'A'
    ensures 0 <= n <= 999 ==>
      && 8 <= |cmd| && cmd[..6] == [':', 'S', 'X', 'E', code, ','] && cmd[|cmd| - 1] == '#'
      && AllDigits(cmd[6..|cmd| - 1]) && ValueOf(cmd[6..|cmd| - 1]) == n
  {
    var full := ":SXE" + [code] + "," + Dec(n) + "#";
    if 0 <= n <= 999 then
      DigitsLength(n);
      assert full[6..|full| - 1] == Dec(n);
      Truncate(full, 20)
    else Truncate(full, 20)
  }

  /** The backlash handler: both values must arrive in [0, 999], else
      nothing is sent and the property ends ALERT. On the valid path DEC is
      sent before RA, and the property ends OK with the new values whatever
      the controller answers: the ALERT a rejected command sets is
      overwritten. */
  method SetBacklash(prop: NumberPair, entries: seq<Entry>, decAck: Ack, raAck: Ack)
    returns (r: NumberReply)
    ensures
      var dec := LastValue(entries, BACKLASH_DEC, 0.0);
      var ra := LastValue(entries, BACKLASH_RA, 0.0);
      var valid := CountInRange(entries, BACKLASH_DEC, 0.0, 999.0)
                 + CountInRange(entries, BACKLASH_RA, 0.0, 999.0) == 2;
      && (!valid ==> r == NumberReply(false, prop.(state := Alert), []))
      && (valid ==> r == NumberReply(true, NumberPair(dec, ra, Ok),
                                     [BacklashCommand('D', TruncToInt(dec)),
                                      BacklashCommand('R', TruncToInt(ra))]))
  {
    var dec, ra, nset := Collect(entries, BACKLASH_DEC, BACKLASH_RA, 0.0, 999.0, 0.0, 999.0);
    if nset == 2 {
      var p := prop;
      var sent := [BacklashCommand('D', TruncToInt(dec))];
      if SendConfirmed(decAck) {
        p := p.(state := Alert);
      }
      sent := sent + [BacklashCommand('R', TruncToInt(ra))];
      if SendConfirmed(raAck) {
        p := p.(state := Alert);
      }
      p := NumberPair(dec, ra, Ok);
      return NumberReply(true, p, sent);
    } else {
      return NumberReply(false, prop.(state := Alert), []);
    }
  }

  /** The meridian-limit handler: the same shape as the backlash handler,
      with both values in [0, 180] and East sent before West. */
  method SetMeridianLimits(prop: NumberPair, entries: seq<Entry>, eastAck: Ack, westAck: Ack)
    returns (r: NumberReply)
    ensures
      var east := LastValue(entries, MERIDIAN_EAST, 0.0);
      var west := LastValue(entries, MERIDIAN_WEST, 0.0);
      var valid := CountInRange(entries, MERIDIAN_EAST, 0.0, 180.0)
                 + CountInRange(entries, MERIDIAN_WEST, 0.0, 180.0) == 2;
      && (!valid ==> r == NumberReply(false, prop.(state := Alert), []))
      && (valid ==> r == NumberReply(true, NumberPair(east, west, Ok),
                                     [MeridianCommand('9', TruncToInt(east)),
                                      MeridianCommand('A', TruncToInt(west))]))
  {
    var east, west, nset := Collect(entries, MERIDIAN_EAST, MERIDIAN_WEST, 0.0, 180.0, 0.0, 180.0);
    if nset == 2 {
      var p := prop;
      var sent := [MeridianCommand('9', TruncToInt(east))];
      if SendConfirmed(eastAck) {
        p := p.(state := Alert);
      }
      sent := sent + [MeridianCommand('A', TruncToInt(west))];
      if SendConfirmed(westAck) {
        p := p.(state := Alert);
      }
      p := NumberPair(east, west, Ok);
      return NumberReply(true, p, sent);
    } else {
      return NumberReply(false, prop.(state := Alert), []);
    }
  }

  /** `:So%02d#`, the maximum elevation command (`setMaxElevationLimit`). */
  function MaxElevationCommand(n: int): (cmd: string)
    ensures 0 <= n < 100 ==>
      && |cmd| == 6 && cmd[..3] == ":So" && cmd[5] == '#'
      && AllDigits(cmd[3..5]) && ValueOf(cmd[3..5]) == n
  {
    var full := ":So" + Pad2(n) + "#";
    if 0 <= n < 100 then
      assert full[3..5] == Pad2(n);
      Truncate(full, RB_MAX_LEN)
    else Truncate(full, RB_MAX_LEN)
  }

  /** The requests of the elevation handler: the minimum goes through the
      generic LX200 library (its command is not part of this model), the
      maximum is this driver's own command. */
  datatype ElevationRequest = MinLimit(degrees: int) | MaxLimit(cmd: string)

  datatype ElevationReply = ElevationReply(handled: bool, prop: NumberPair, requests: seq<ElevationRequest>)

  /** The elevation-limit handler: the minimum must be in [-30, 30] and the
      maximum in [60, 90], else nothing is sent and the property ends IDLE
      (not ALERT, unlike the other handlers). On the valid path the minimum
      is set before the maximum; a failed maximum (negative result) ends
      ALERT with the old values kept, and a failed minimum alone is
      overwritten by OK. */
  method SetElevationLimits(prop: NumberPair, entries: seq<Entry>, minResult: int, maxResult: int)
    returns (r: ElevationReply)
    ensures
      var lo := LastValue(entries, ELEVATION_MIN, 0.0);
      var hi := LastValue(entries, ELEVATION_MAX, 0.0);
      var valid := CountInRange(entries, ELEVATION_MIN, -30.0, 30.0)
                 + CountInRange(entries, ELEVATION_MAX, 60.0, 90.0) == 2;
      var requests := [MinLimit(TruncToInt(lo)), MaxLimit(MaxElevationCommand(TruncToInt(hi)))];
      && (!valid ==> r == ElevationReply(false, prop.(state := Idle), []))
      && (valid && maxResult < 0 ==> r == ElevationReply(false, prop.(state := Alert), requests))
      && (valid && maxResult >= 0 ==> r == ElevationReply(true, NumberPair(lo, hi, Ok), requests))
  {
    var lo, hi, nset := Collect(entries, ELEVATION_MIN, ELEVATION_MAX, -30.0, 30.0, 60.0, 90.0);
    if nset == 2 {
      var p := prop;
      var requests := [MinLimit(TruncToInt(lo))];
      if minResult < 0 {
        p := p.(state := Alert);
      }
      requests := requests + [MaxLimit(MaxElevationCommand(TruncToInt(hi)))];
      if maxResult < 0 {
        p := p.(state := Alert);
        return ElevationReply(false, p, requests);
      }
      p := NumberPair(lo, hi, Ok);
      return ElevationReply(true, p, requests);
    } else {
      return ElevationReply(false, prop.(state := Idle), []);
    }
  }

  /** A minimum of 40 degrees is refused before anything is sent, and the
      refusal is IDLE, distinct from the ALERT of a device failure. */
  lemma ElevationMinFortyRejected(hi: real)
    ensures var entries := [Entry(ELEVATION_MIN, 40.0), Entry(ELEVATION_MAX, hi)];
      CountInRange(entries, ELEVATION_MIN, -30.0, 30.0)
      + CountInRange(entries, ELEVATION_MAX, 60.0, 90.0) != 2
  {
    var entries := [Entry(ELEVATION_MIN, 40.0), Entry(ELEVATION_MAX, hi)];
    var head := [Entry(ELEVATION_MIN, 40.0)];
    assert ELEVATION_MIN[1] != ELEVATION_MAX[1];
    assert entries[..1] == head && head[..0] == [];
    assert CountInRange(head, ELEVATION_MIN, -30.0, 30.0) == 0;
    assert CountInRange(head, ELEVATION_MAX, 60.0, 90.0) == 0;
    assert CountInRange(entries, ELEVATION_MIN, -30.0, 30.0) == 0;
  }

  /** `:R%d#` in a 4-byte buffer: the terminating '#' never fits, and a rate
      of two or more digits keeps only its first digit. */
  function SlewRateCommand(n: int): (cmd: string)
    ensures |cmd| == 3 && '#' !in cmd && cmd[..2] == ":R"
    ensures 0 <= n <= 9 ==> cmd == [':', 'R', DigitChar(n)]
  {
    Truncate(":R" + Dec(n) + "#", 4)
  }

  datatype SlewRateReply = SlewRateReply(handled: bool, value: real, state: IPState, sent: seq<string>)

  /** The maximum slew rate handler: the blind sender's result is compared
      with -1, which a `bool` never equals, so the handler always ends OK
      with the submitted value. */
  function SetMaxSlewRate(value: real, writeCode: int): (r: SlewRateReply)
    ensures r.handled && r.state == Ok && r.value == value
    ensures r.sent == [SlewRateCommand(TruncToInt(value))]
  {
    var ret := if SendBlind(writeCode) then 1 else 0;
    if ret == -1 then SlewRateReply(false, value, Alert, [SlewRateCommand(TruncToInt(value))])
    else SlewRateReply(true, value, Ok, [SlewRateCommand(TruncToInt(value))])
  }

  /** `:SC%02d/%02d/%02d#` (month, day, two-digit year) in a 32-byte
      buffer. */
  function DateCommand(days: nat, months: nat, years: nat): (cmd: string)
    ensures days < 100 && months < 100 ==>
      && |cmd| == 12 && cmd[..3] == ":SC" && cmd[5] == '/' && cmd[8] == '/' && cmd[11] == '#'
      && AllDigits(cmd[3..5]) && ValueOf(cmd[3..5]) == months
      && AllDigits(cmd[6..8]) && ValueOf(cmd[6..8]) == days
      && AllDigits(cmd[9..11]) && ValueOf(cmd[9..11]) == years % 100
  {
    var mm, dd, yy := Pad2(months), Pad2(days), Pad2(years % 100);
    var full := ":SC" + mm + "/" + dd + "/" + yy + "#";
    if days < 100 && months < 100 then
      DateFields(mm, dd, yy);
      Truncate(full, 32)
    else Truncate(full, 32)
  }

  /** Where the three two-character fields sit in the date command. */
  lemma DateFields(mm: string, dd: string, yy: string)
    requires |mm| == 2 && |dd| == 2 && |yy| == 2
    ensures var full := ":SC" + mm + "/" + dd + "/" + yy + "#";
      && |full| == 12 && full[..3] == ":SC" && full[5] == '/' && full[8] == '/' && full[11] == '#'
      && full[3..5] == mm && full[6..8] == dd && full[9..11] == yy
  {
  }

  /** `setLocalDate`: send the date command confirmed; the date is accepted
      when the sender returns false, that is, when the controller answers a
      byte other than '0'. */
  function SetLocalDate(days: nat, months: nat, years: nat, ack: Ack): (r: (bool, seq<string>))
    requires days < 256 && months < 256 && years < 65536
    ensures r.1 == [DateCommand(days, months, years)]
    ensures ack.writeCode == TTY_OK && ack.read.GotByte? ==> (r.0 <==> ack.read.b != '0')
    ensures ack.writeCode != TTY_OK ==> !r.0
    ensures ack.writeCode == TTY_OK && ack.read.ReadFailed? ==> (r.0 <==> ack.read.code == TTY_OK)
  {
    var cmd := DateCommand(days, months, years);
    if !SendConfirmed(ack) then (true, [cmd]) else (false, [cmd])
  }
}

=== FILE: status_decoder.dfy ===
/** The status part of `ReadScopeStatus`: the decoding of the `:GU#` status
    string and of the `:Gm#` pier-side reply, each behind its own change
    guard, as pure steps `(decoder, reply) -> decoder`.

    The status string is a bag of independent marker characters. Every
    marker is looked for with `strstr` anywhere in the string, in a fixed order,
    and a later match overwrites the label an earlier one wrote. Only the
    error code is positional: it is the last character minus '0'. */
module StatusDecoder {
  import opened Basics
  import opened CString

  /** The controller's error codes, in the order of the `Errors` enum. */
  datatype ErrorCode =
    | ErrNone | ErrMotorFault | ErrAlt | ErrLimitSense | ErrDec | ErrAzm
    | ErrUnderPole | ErrMeridian | ErrSync | ErrPark | ErrGotoSync

  /** Position of a code in the enum. */
  function Ordinal(e: ErrorCode): (k: nat)
    ensures k <= 10
  {
    match e
    case ErrNone => 0
    case ErrMotorFault => 1
    case ErrAlt => 2
    case ErrLimitSense => 3
    case ErrDec => 4
    case ErrAzm => 5
    case ErrUnderPole => 6
    case ErrMeridian => 7
    case ErrSync => 8
    case ErrPark => 9
    case ErrGotoSync => 10
  }

  /** The enumerator that `(Errors)k` compares equal to, if there is one. */
  function FromOrdinal(k: int): (r: Option<ErrorCode>)
    ensures r.Some? <==> 0 <= k <= 10
    ensures r.Some? ==> Ordinal(r.value) == k
  {
    if k == 0 then Some(ErrNone)
    else if k == 1 then Some(ErrMotorFault)
    else if k == 2 then Some(ErrAlt)
    else if k == 3 then Some(ErrLimitSense)
    else if k == 4 then Some(ErrDec)
    else if k == 5 then Some(ErrAzm)
    else if k == 6 then Some(ErrUnderPole)
    else if k == 7 then Some(ErrMeridian)
    else if k == 8 then Some(ErrSync)
    else if k == 9 then Some(ErrPark)
    else if k == 10 then Some(ErrGotoSync)
    else None
  }

  /** The enum is a bijection between its eleven codes and 0..10. */
  lemma OrdinalRoundTrip(e: ErrorCode)
    ensures FromOrdinal(Ordinal(e)) == Some(e)
  {
  }

  /** The character that, as the last character of a status string, encodes
      `e`: '0' + ordinal, so ERR_GOTO_SYNC is ':'. */
  function ErrorChar(e: ErrorCode): (c: char)
    ensures DigitValue(c) == Ordinal(e)
  {
    ('0' as int + Ordinal(e)) as char
  }

  /** The label published for each error code. */
  function ErrorText(e: ErrorCode): string
  {
    match e
    case ErrNone => "None"
    case ErrMotorFault => "Motor Fault"
    case ErrAlt => "Altitude Min/Max"
    case ErrLimitSense => "Limit Sense"
    case ErrDec => "Dec Limit Exceeded"
    case ErrAzm => "Azm Limit Exceeded"
    case ErrUnderPole => "Under Pole Limit Exceeded"
    case ErrMeridian => "Meridian Limit (W) Exceeded"
    case ErrSync => "Sync. ignored > 30 deg"
    case ErrPark => "Park Error"
    case ErrGotoSync => "Goto Sync Error"
  }

  /** The telescope's motion state as the base class keeps it (`TrackState`). */
  datatype ScopeStatus = ScopeIdle | ScopeSlewing | ScopeTracking | ScopeParking | ScopeParked

  datatype PierSide = PierUnknown | PierWest | PierEast

  /** The part of the state the motion and park markers write: the
      base-class park flag and motion state, and the tracking and park
      labels of the status tab. */
  datatype Motion = Motion(parked: bool, track: ScopeStatus, trackText: string, parkText: string)

  /** The other labels of the status tab: the raw `:GU#` reply, refraction,
      time sync, mount type and error. */
  datatype Labels = Labels(raw: string, refraction: string, timeSync: string, mount: string, error: string)

  /** Everything the poll reads and writes: the two previous replies that
      guard the decoding, the one-shot first-read flag, motion and park
      state, pier side, the status labels, and the "off" and "on" switches
      of the pause-at-home property with that property's status. */
  datatype Decoder = Decoder(
    oldStat: string,
    oldPier: string,
    firstRead: bool,
    motion: Motion,
    pier: PierSide,
    labels: Labels,
    pauseOff: bool,
    pauseOn: bool,
    pauseState: IPState)

  /** A freshly constructed driver: both previous replies empty, first read
      pending, all labels empty; park flag, motion state and pier side are
      whatever the base class holds. */
  function Initial(parked: bool, track: ScopeStatus, pier: PierSide): (d: Decoder)
    ensures d.firstRead && d.oldStat == [] && d.oldPier == []
  {
    Decoder([], [], true, Motion(parked, track, [], []), pier, Labels([], [], [], [], []), false, false, Idle)
  }

  /** The strings the decoder keeps all fit their `RB_MAX_LEN` buffers. */
  predicate Bounded(d: Decoder)
  {
    FitsBuffer(d.oldStat) && FitsBuffer(d.oldPier) && FitsBuffer(d.labels.raw)
  }

  /** The base class's `SetParked`: it records the flag and moves the motion
      state to parked or idle. */
  function SetParked(m: Motion, parked: bool): (r: Motion)
    ensures r.parked == parked
    ensures r.parked <==> r.track == ScopeParked
    ensures !parked ==> r.track == ScopeIdle
    ensures r.trackText == m.trackText && r.parkText == m.parkText
  {
    m.(parked := parked, track := if parked then ScopeParked else ScopeIdle)
  }

  /** Setting the park flag to the value it already has changes nothing. */
  lemma SetParkedIdempotent(m: Motion, parked: bool)
    ensures SetParked(SetParked(m, parked), parked) == SetParked(m, parked)
  {
  }

  /** Motion markers: 'n' means not slewing, 'N' means not tracking. */
  function DecodeTracking(m: Motion, s: string): (r: Motion)
    ensures 'n' in s && 'N' in s ==> r.track == ScopeIdle && r.trackText == "Idle"
    ensures 'n' in s && 'N' !in s ==> r.track == ScopeSlewing && r.trackText == "Slewing"
    ensures 'N' in s && 'n' !in s ==> r.track == ScopeTracking && r.trackText == "Tracking"
    ensures 'n' !in s && 'N' !in s ==> r == m
    ensures r.parked == m.parked && r.parkText == m.parkText
  {
    var m1 := if 'n' in s && 'N' in s then m.(trackText := "Idle", track := ScopeIdle) else m;
    var m2 := if 'n' in s && 'N' !in s then m1.(trackText := "Slewing", track := ScopeSlewing) else m1;
    if 'N' in s && 'n' !in s then m2.(trackText := "Tracking", track := ScopeTracking) else m2
  }

  /** The 'p' (unparked) marker: not parked, and idle only when 'n' is
      immediately followed by 'N', tracking otherwise. */
  function Unparked(m: Motion, s: string): (r: Motion)
    ensures !r.parked && r.parkText == "UnParked"
    ensures r.track == (if HasPair(s, 'n', 'N') then ScopeIdle else ScopeTracking)
    ensures r.trackText == (if HasPair(s, 'n', 'N') then "Idle" else m.trackText)
    ensures r.trackText != m.trackText ==> 'n' in s && 'N' in s
  {
    var u := SetParked(m, false);
    if HasPair(s, 'n', 'N') then
      HasPairImpliesBoth(s, 'n', 'N');
      u.(trackText := "Idle", track := ScopeIdle, parkText := "UnParked")
    else u.(track := ScopeTracking, parkText := "UnParked")
  }

  /** Park markers on the first changed status after start-up: 'P', 'F',
      'I', 'p' are applied in that order, each overriding the previous one. */
  function ParkFirstRead(m: Motion, s: string): (r: Motion)
    ensures r.parked == (if 'p' in s || 'I' in s || 'F' in s then false
                         else if 'P' in s then true else m.parked)
    ensures r.track == (if 'p' in s then (if HasPair(s, 'n', 'N') then ScopeIdle else ScopeTracking)
                        else if 'I' in s then ScopeParking
                        else if 'F' in s then ScopeIdle
                        else if 'P' in s then ScopeParked
                        else m.track)
    ensures r.parkText == (if 'p' in s then "UnParked"
                           else if 'I' in s then "Park in Progress"
                           else if 'F' in s then "Parking Failed"
                           else if 'P' in s then "Parked"
                           else m.parkText)
    ensures r.trackText != m.trackText ==> r.trackText == "Idle" && 'n' in s && 'N' in s
  {
    var m1 := if 'P' in s then SetParked(m, true).(parkText := "Parked") else m;
    var m2 := if 'F' in s then SetParked(m1, false).(parkText := "Parking Failed") else m1;
    var m3 := if 'I' in s then SetParked(m2, false).(track := ScopeParking, parkText := "Park in Progress") else m2;
    if 'p' in s then Unparked(m3, s) else m3
  }

  /** Park markers on every later changed status. While not parked only
      'P' (parked) and 'I' (parking) act; then, with the park flag read
      again, while parked only 'F' (park failed) and 'p' (unparked) act. */
  function ParkLaterRead(m: Motion, s: string): (r: Motion)
    ensures r.parked == ((m.parked || ('P' in s && 'I' !in s)) && 'F' !in s && 'p' !in s)
    ensures r.track ==
      (var reparked := m.parked || ('P' in s && 'I' !in s);
       if reparked && 'p' in s then (if HasPair(s, 'n', 'N') then ScopeIdle else ScopeTracking)
       else if reparked && 'F' in s then ScopeIdle
       else if !m.parked && 'I' in s then ScopeParking
       else if !m.parked && 'P' in s then ScopeParked
       else m.track)
    ensures r.parkText ==
      (var reparked := m.parked || ('P' in s && 'I' !in s);
       if reparked && 'p' in s then "UnParked"
       else if reparked && 'F' in s then "Parking Failed"
       else if !m.parked && 'I' in s then "Park in Progress"
       else if !m.parked && 'P' in s then "Parked"
       else m.parkText)
    ensures r.trackText != m.trackText ==> r.trackText == "Idle" && 'n' in s && 'N' in s
  {
    var m1 :=
      if !m.parked then
        var a := if 'P' in s then SetParked(m, true).(parkText := "Parked") else m;
        if 'I' in s then SetParked(a, false).(track := ScopeParking, parkText := "Park in Progress") else a
      else m;
    if m1.parked then
      var b := if 'F' in s then SetParked(m1, false).(parkText := "Parking Failed") else m1;
      if 'p' in s then Unparked(b, s) else b
    else m1
  }

  /** 'H' (at home) combined with 'P' or 'p', and then 'w' (waiting at home);
      each later match wins, so 'w' overrides both composites and the 'p'
      composite overrides the 'P' one. */
  function DecodeHome(m: Motion, s: string): (r: Motion)
    ensures 'w' in s ==> r.parkText == "Waiting at Home"
    ensures 'w' !in s && 'H' in s && 'p' in s ==> r.parkText == "At Home and UnParked"
    ensures 'w' !in s && 'H' in s && 'P' in s && 'p' !in s ==> r.parkText == "At Home and Parked"
    ensures 'w' !in s && ('H' !in s || ('P' !in s && 'p' !in s)) ==> r == m
    ensures r == m.(parkText := r.parkText)
  {
    var m1 := if 'H' in s && 'P' in s then m.(parkText := "At Home and Parked") else m;
    var m2 := if 'H' in s && 'p' in s then m1.(parkText := "At Home and UnParked") else m1;
    if 'w' in s then m2.(parkText := "Waiting at Home") else m2
  }

  /** The motion part of the decode block: motion markers, then the park
      markers of the first or of a later read, then the home markers. */
  function DecodeMotion(m: Motion, firstRead: bool, s: string): (r: Motion)
    ensures 'n' in s && 'N' in s ==> r.trackText == "Idle"
    ensures 'n' in s && 'N' !in s ==> r.trackText == "Slewing"
    ensures 'N' in s && 'n' !in s ==> r.trackText == "Tracking"
    ensures 'n' !in s && 'N' !in s ==> r.trackText == m.trackText
  {
    var m1 := DecodeTracking(m, s);
    var m2 := if firstRead then ParkFirstRead(m1, s) else ParkLaterRead(m1, s);
    DecodeHome(m2, s)
  }

  /** Refraction markers: 'r' refraction on, 's' off, 't' full compensation.
      "Refractoring On" is always overwritten when 'r' is present. */
  function DecodeRefraction(prev: string, s: string): (r: string)
    ensures 'r' in s && 't' in s ==> r == "Full Comp"
    ensures 'r' in s && 't' !in s ==> r == "Refractory Comp"
    ensures 'r' !in s && 's' in s ==> r == "Refractoring Off"
    ensures 'r' !in s && 's' !in s ==> r == prev
    ensures r == "Refractoring On" ==> prev == "Refractoring On"
  {
    var t1 := if 'r' in s then "Refractoring On" else prev;
    var t2 := if 's' in s then "Refractoring Off" else t1;
    var t3 := if 'r' in s && 't' in s then "Full Comp" else t2;
    if 'r' in s && 't' !in s then "Refractory Comp" else t3
  }

  /** 'S': PPS / GPS time synchronisation is in effect. */
  function DecodeTimeSync(prev: string, s: string): (r: string)
    ensures r == (if 'S' in s then "PPS / GPS Sync Ok" else "N/A")
  {
    var t1 := if 'S' !in s then "N/A" else prev;
    if 'S' in s then "PPS / GPS Sync Ok" else t1
  }

  /** Mount type markers, checked in the order 'E', 'K', 'k', 'A': the last one present
      wins, so the precedence is A over k over K over E. */
  function DecodeMount(prev: string, s: string): (r: string)
    ensures 'A' in s ==> r == "AltAZ Mount"
    ensures 'A' !in s && 'k' in s ==> r == "Fork Alt Mount"
    ensures 'A' !in s && 'k' !in s && 'K' in s ==> r == "Fork Mount"
    ensures 'A' !in s && 'k' !in s && 'K' !in s && 'E' in s ==> r == "German Mount"
    ensures 'A' !in s && 'k' !in s && 'K' !in s && 'E' !in s ==> r == prev
  {
    var t1 := if 'E' in s then "German Mount" else prev;
    var t2 := if 'K' in s then "Fork Mount" else t1;
    var t3 := if 'k' in s then "Fork Alt Mount" else t2;
    if 'A' in s then "AltAZ Mount" else t3
  }

  /** The error code is the last character minus '0'; a value outside the
      enum leaves the error label as it was. */
  function DecodeError(prev: string, s: string): (r: string)
    requires |s| > 0
    ensures (forall e :: DigitValue(s[|s| - 1]) != Ordinal(e)) ==> r == prev
    ensures forall e :: DigitValue(s[|s| - 1]) == Ordinal(e) ==> r == ErrorText(e)
  {
    match FromOrdinal(DigitValue(s[|s| - 1]))
    case Some(e) =>
      assert forall e' :: Ordinal(e') == Ordinal(e) ==> e' == e by {
        forall e' | Ordinal(e') == Ordinal(e) ensures e' == e {
          OrdinalRoundTrip(e');
          OrdinalRoundTrip(e);
        }
      }
      ErrorText(e)
    case None => prev
  }

  /** The whole decode block, run when the status reply has changed: it
      records the reply, decodes every marker and clears the first-read
      flag. The pause-at-home marker 'u' turns the "on" switch on, its
      absence turns the "off" switch on; neither turns the other one off,
      and either way the property's status becomes OK. */
  function DecodeChanged(d: Decoder, s: string): (r: Decoder)
    requires |s| > 0
    ensures r.oldStat == s && r.labels.raw == s && !r.firstRead
    ensures r.oldPier == d.oldPier && r.pier == d.pier
    ensures r.pauseState == Ok
    ensures 'u' in s ==> r.pauseOn && r.pauseOff == d.pauseOff
    ensures 'u' !in s ==> r.pauseOff && r.pauseOn == d.pauseOn
  {
    d.(oldStat := s,
       firstRead := false,
       motion := DecodeMotion(d.motion, d.firstRead, s),
       labels := Labels(s,
                        DecodeRefraction(d.labels.refraction, s),
                        DecodeTimeSync(d.labels.timeSync, s),
                        DecodeMount(d.labels.mount, s),
                        DecodeError(d.labels.error, s)),
       pauseOn := d.pauseOn || 'u' in s,
       pauseOff := d.pauseOff || 'u' !in s,
       pauseState := Ok)
  }

  /** One `:GU#` poll: the decode block runs only when the reply differs from
      the previous one, which it then records. An empty reply is indexed at
      `strlen - 1` by the error decoding, so a changed reply must not be
      empty. */
  function StatusStep(d: Decoder, reply: string): (r: Decoder)
    requires FitsBuffer(reply)
    requires reply == d.oldStat || reply != []
    ensures reply == d.oldStat ==> r == d
    ensures r.oldStat == reply
    ensures r.firstRead == (d.firstRead && reply == d.oldStat)
    ensures r.oldPier == d.oldPier && r.pier == d.pier
    ensures Bounded(d) ==> Bounded(r)
  {
    if reply == d.oldStat then d else DecodeChanged(d, reply)
  }

  /** What a changed status reply publishes, marker by marker, with later
      matches winning: the table the ordered `strstr` tests amount to. */
  lemma ChangedReplyLabels(d: Decoder, s: string)
    requires FitsBuffer(s) && s != d.oldStat && s != []
    ensures var r := StatusStep(d, s);
      && r.labels.raw == s
      && ('n' in s && 'N' in s ==> r.motion.trackText == "Idle")
      && ('n' in s && 'N' !in s ==> r.motion.trackText == "Slewing")
      && ('N' in s && 'n' !in s ==> r.motion.trackText == "Tracking")
      && ('n' !in s && 'N' !in s ==> r.motion.trackText == d.motion.trackText)
      && ('r' in s ==> r.labels.refraction == (if 't' in s then "Full Comp" else "Refractory Comp"))
      && ('r' !in s && 's' in s ==> r.labels.refraction == "Refractoring Off")
      && ('w' in s ==> r.motion.parkText == "Waiting at Home")
      && ('w' !in s && 'H' in s && 'p' in s ==> r.motion.parkText == "At Home and UnParked")
      && ('w' !in s && 'H' in s && 'P' in s && 'p' !in s ==> r.motion.parkText == "At Home and Parked")
      && r.labels.timeSync == (if 'S' in s then "PPS / GPS Sync Ok" else "N/A")
      && ('A' in s ==> r.labels.mount == "AltAZ Mount")
      && ('A' !in s && 'k' in s ==> r.labels.mount == "Fork Alt Mount")
      && ('A' !in s && 'k' !in s && 'K' in s ==> r.labels.mount == "Fork Mount")
      && ('A' !in s && 'k' !in s && 'K' !in s && 'E' in s ==> r.labels.mount == "German Mount")
      && (forall e :: DigitValue(s[|s| - 1]) == Ordinal(e) ==> r.labels.error == ErrorText(e))
      && (0 <= DigitValue(s[|s| - 1]) <= 10 || r.labels.error == d.labels.error)
      && r.pauseState == Ok
      && ('u' in s ==> r.pauseOn && r.pauseOff == d.pauseOff)
      && ('u' !in s ==> r.pauseOff && r.pauseOn == d.pauseOn)
  {
    var r := StatusStep(d, s);
    if !(0 <= DigitValue(s[|s| - 1]) <= 10) {
      assert forall e :: DigitValue(s[|s| - 1]) != Ordinal(e);
    }
  }

  /** The status never turns a pause-at-home switch off: a reply with 'u'
      followed by one without leaves both the "on" and the "off" switch on. */
  lemma PauseSwitchesBothOn(d: Decoder, s1: string, s2: string)
    requires FitsBuffer(s1) && FitsBuffer(s2)
    requires s1 != d.oldStat && s1 != [] && s2 != s1 && s2 != []
    requires 'u' in s1 && 'u' !in s2
    ensures var r := StatusStep(StatusStep(d, s1), s2);
      r.pauseOn && r.pauseOff && r.pauseState == Ok
  {
    var r1 := StatusStep(d, s1);
    assert r1.pauseOn;
  }

  /** The park state a changed reply leaves on the first read, when no home
      or waiting marker overrides the park label. */
  lemma FirstReadPark(d: Decoder, s: string)
    requires FitsBuffer(s) && s != d.oldStat && s != [] && d.firstRead
    ensures var r := StatusStep(d, s);
      && r.motion.parked == (if 'p' in s || 'I' in s || 'F' in s then false
                             else if 'P' in s then true else d.motion.parked)
      && ('p' in s ==> r.motion.track == (if HasPair(s, 'n', 'N') then ScopeIdle else ScopeTracking))
      && ('p' !in s && 'I' in s ==> r.motion.track == ScopeParking)
      && ('p' !in s && 'I' !in s && 'F' in s ==> r.motion.track == ScopeIdle)
      && ('p' !in s && 'I' !in s && 'F' !in s && 'P' in s ==> r.motion.track == ScopeParked)
      && ('P' !in s && 'I' !in s && 'F' !in s && 'p' !in s ==> r.motion.track == DecodeTracking(d.motion, s).track)
      && ('H' !in s && 'w' !in s ==>
            r.motion.parkText == (if 'p' in s then "UnParked"
                                  else if 'I' in s then "Park in Progress"
                                  else if 'F' in s then "Parking Failed"
                                  else if 'P' in s then "Parked"
                                  else d.motion.parkText))
  {
  }

  /** The park state a changed reply leaves on every later read: 'P' and 'I'
      act only while not parked, 'F' and 'p' only while parked, the flag
      being read again after 'P' may have set it. */
  lemma LaterReadPark(d: Decoder, s: string)
    requires FitsBuffer(s) && s != d.oldStat && s != [] && !d.firstRead
    ensures var r := StatusStep(d, s);
      var reparked := d.motion.parked || ('P' in s && 'I' !in s);
      && r.motion.parked == (reparked && 'F' !in s && 'p' !in s)
      && (reparked && 'p' in s ==> r.motion.track == (if HasPair(s, 'n', 'N') then ScopeIdle else ScopeTracking))
      && (reparked && 'p' !in s && 'F' in s ==> r.motion.track == ScopeIdle)
      && (!d.motion.parked && 'I' in s ==> r.motion.track == ScopeParking)
      && (!d.motion.parked && 'P' in s && 'I' !in s && 'F' !in s && 'p' !in s ==> r.motion.track == ScopeParked)
      && ('P' !in s && 'I' !in s && 'F' !in s && 'p' !in s ==> r.motion.track == DecodeTracking(d.motion, s).track)
      && ('H' !in s && 'w' !in s ==>
            r.motion.parkText == (if reparked && 'p' in s then "UnParked"
                                  else if reparked && 'F' in s then "Parking Failed"
                                  else if !d.motion.parked && 'I' in s then "Park in Progress"
                                  else if !d.motion.parked && 'P' in s then "Parked"
                                  else d.motion.parkText))
  {
  }

  /** The scenario "PHS3" on a first read: parked, "At Home and Parked",
      PPS / GPS synchronised, and error 3, which the enum names
      ERR_LIMIT_SENSE. */
  lemma ParkedAtHomeScenario(d: Decoder)
    requires d.firstRead && d.oldStat != "PHS3"
    ensures var r := StatusStep(d, "PHS3");
      && r.motion.parked && r.motion.track == ScopeParked
      && r.motion.parkText == "At Home and Parked"
      && r.labels.timeSync == "PPS / GPS Sync Ok"
      && r.labels.error == ErrorText(ErrLimitSense)
  {
    var s := "PHS3";
    assert 'P' in s && 'H' in s && 'S' in s;
    assert 'p' !in s && 'I' !in s && 'F' !in s && 'w' !in s;
    assert 'n' !in s && 'N' !in s;
    assert DigitValue(s[|s| - 1]) == Ordinal(ErrLimitSense);
  }

  /** The letter the controller sends for each pier side. */
  function PierLetter(p: PierSide): char
  {
    match p
    case PierEast => 'E'
    case PierWest => 'W'
    case PierUnknown => 'N'
  }

  /** One `:Gm#` poll, behind its own change guard: 'E' east, 'W' west,
      'N' or '?' unknown; any other first character records the reply but
      leaves the pier side alone. */
  function PierStep(d: Decoder, reply: string): (r: Decoder)
    requires FitsBuffer(reply)
    ensures reply == d.oldPier ==> r == d
    ensures r == d.(oldPier := reply, pier := r.pier)
    ensures reply != d.oldPier && CharAt(reply, 0) !in "EWN?" ==> r.pier == d.pier
    ensures Bounded(d) ==> Bounded(r)
  {
    if reply == d.oldPier then d
    else
      var d1 := d.(oldPier := reply);
      match CharAt(reply, 0)
      case 'E' => d1.(pier := PierEast)
      case 'W' => d1.(pier := PierWest)
      case 'N' => d1.(pier := PierUnknown)
      case '?' => d1.(pier := PierUnknown)
      case _ => d1
  }

  /** A new pier reply starting with the letter of a side yields that side,
      and '?' yields unknown. */
  lemma PierLetterDecodes(d: Decoder, reply: string, p: PierSide)
    requires FitsBuffer(reply) && reply != d.oldPier
    requires |reply| > 0 && (reply[0] == PierLetter(p) || (p == PierUnknown && reply[0] == '?'))
    ensures PierStep(d, reply).pier == p
  {
  }

  /** A changed status string ending in the error character of `e`
      publishes the label of `e`. */
  lemma ErrorCharDecodes(d: Decoder, s: string, e: ErrorCode)
    requires FitsBuffer(s) && s != d.oldStat && |s| > 0
    requires s[|s| - 1] == ErrorChar(e)
    ensures StatusStep(d, s).labels.error == ErrorText(e)
  {
  }

  /** Feeding the same status reply twice changes nothing the second time. */
  lemma StatusStepIdempotent(d: Decoder, reply: string)
    requires FitsBuffer(reply)
    requires reply == d.oldStat || reply != []
    ensures StatusStep(StatusStep(d, reply), reply) == StatusStep(d, reply)
  {
  }

  /** The same holds of the pier reply. */
  lemma PierStepIdempotent(d: Decoder, reply: string)
    requires FitsBuffer(reply)
    ensures PierStep(PierStep(d, reply), reply) == PierStep(d, reply)
  {
  }

  /** The two change guards are independent: decoding the status and the
      pier reply in either order gives the same decoder. */
  lemma GuardsCommute(d: Decoder, stat: string, pier: string)
    requires FitsBuffer(stat) && FitsBuffer(pier)
    requires stat == d.oldStat || stat != []
    ensures PierStep(StatusStep(d, stat), pier) == StatusStep(PierStep(d, pier), stat)
  {
  }

  /** One poll: the status reply, then the pier reply. */
  function Poll(d: Decoder, stat: string, pier: string): (r: Decoder)
    requires FitsBuffer(stat) && FitsBuffer(pier)
    requires stat == d.oldStat || stat != []
    ensures r.firstRead == (d.firstRead && stat == d.oldStat)
    ensures r.oldStat == stat && r.oldPier == pier
    ensures Bounded(d) ==> Bounded(r)
  {
    PierStep(StatusStep(d, stat), pier)
  }

  /** A poll's pair of replies. */
  datatype Replies = Replies(stat: string, pier: string)

  /** A run of polls that the driver can perform: every reply fits its
      buffer and every status reply is non-empty. */
  predicate Admissible(rs: seq<Replies>)
  {
    forall i :: 0 <= i < |rs| ==> FitsBuffer(rs[i].stat) && FitsBuffer(rs[i].pier) && rs[i].stat != []
  }

  /** The decoder after a run of polls. */
  function Run(d: Decoder, rs: seq<Replies>): Decoder
    requires Admissible(rs)
    decreases |rs|
  {
    if rs == [] then d else Run(Poll(d, rs[0].stat, rs[0].pier), rs[1..])
  }

  /** How many polls of a run take the first-read branch of the park
      decoding. */
  function FirstReadDecodes(d: Decoder, rs: seq<Replies>): nat
    requires Admissible(rs)
    decreases |rs|
  {
    if rs == [] then 0
    else
      (if d.firstRead && rs[0].stat != d.oldStat then 1 else 0)
      + FirstReadDecodes(Poll(d, rs[0].stat, rs[0].pier), rs[1..])
  }

  /** The first-read branch runs at most once per driver instance, and never
      once the flag is cleared. */
  lemma {:induction false} FirstReadAtMostOnce(d: Decoder, rs: seq<Replies>)
    requires Admissible(rs)
    ensures FirstReadDecodes(d, rs) <= (if d.firstRead then 1 else 0)
    decreases |rs|
  {
    if rs != [] {
      FirstReadAtMostOnce(Poll(d, rs[0].stat, rs[0].pier), rs[1..]);
    }
  }

  /** A run of polls keeps every stored reply within its buffer. */
  lemma {:induction false} RunStaysBounded(d: Decoder, rs: seq<Replies>)
    requires Admissible(rs) && Bounded(d)
    ensures Bounded(Run(d, rs))
    decreases |rs|
  {
    if rs != [] {
      RunStaysBounded(Poll(d, rs[0].stat, rs[0].pier), rs[1..]);
    }
  }
}

=== FILE: switch_settings.dfy ===
/** The one-of-many switch handlers of the driver: tracking compensation,
    automatic meridian flip, pause at home, frequency adjustment, preferred
    pier side, and homing.

    Each of the first five walks its switches in order; for every switch
    that is on it sends that switch's command, and the first command whose
    outcome counts as success ends the handler with OK. When none succeeds
    the switches are reset and the property ends in a handler-specific
    state. The handler always reports the update as handled. */
module SwitchSettings {
  import opened Basics
  import opened Channel

  /** The constants that tell the five handlers apart. `successWhen` is the
      sender result the handler treats as success: `false` where the source
      tests `!send(...)`, `true` where it tests `send(...)`. `resetOnWin`
      names the switch whose success also resets the switches. */
  datatype GroupSpec = GroupSpec(
    commands: seq<string>,
    messages: seq<string>,
    blind: bool,
    successWhen: bool,
    failState: IPState,
    resetOnWin: Option<nat>)

  predicate ValidSpec(spec: GroupSpec)
  {
    |spec.messages| == |spec.commands| && spec.failState != Ok
  }

  /** Full compensation, refraction only, or none; confirmed, success when
      the sender returns false. */
  const TRACK_COMP: GroupSpec := GroupSpec(
    [":To#", ":Tr#", ":Tn#"],
    ["Full Compensated Tracking On", "Refraction Tracking On", "Refraction Tracking Disabled"],
    false, false, Idle, None)

  /** Automatic meridian flip off / on; confirmed, success when the sender
      returns true. The fallback leaves the state BUSY. */
  const AUTO_FLIP: GroupSpec := GroupSpec(
    [":SX95,0#", ":SX95,1#"],
    ["Auto Meridan Flip OFF", "Auto Meridan Flip ON"],
    false, true, Busy, None)

  /** Pause at home off / on / continue; confirmed, success when the sender
      returns true. A successful "continue" also resets the switches. */
  const HOME_PAUSE: GroupSpec := GroupSpec(
    [":SX98,0#", ":SX98,1#", ":SX99,1#"],
    ["Home Pause OFF", "Home Pause ON", "Home Pause: Continue"],
    false, true, Idle, Some(2))

  /** Sidereal frequency down / up / reset; blind, success when the sender
      returns false. */
  const FREQUENCY_ADJUST: GroupSpec := GroupSpec(
    [":T-#", ":T+#", ":TR#"],
    ["Frequency decreased", "Frequency increased", "Frequency Reset (TO saved EEPROM)"],
    true, false, Idle, None)

  /** Preferred pier side west / east / best; confirmed, success when the
      sender returns true. The fallback leaves the state BUSY. */
  const PREFERRED_PIER: GroupSpec := GroupSpec(
    [":SX96,W#", ":SX96,E#", ":SX96,B#"],
    ["Preferred Pier Side: West", "Preferred Pier Side: East", "Preferred Pier Side: Best"],
    false, true, Busy, None)

  /** Whether one exchange counts as success for this handler. A blind send
      looks only at the write's status code. */
  predicate Succeeds(spec: GroupSpec, ack: Ack)
  {
    (if spec.blind then SendBlind(ack.writeCode) else SendConfirmed(ack)) == spec.successWhen
  }

  /** The commands of the switches that are on among indices [from, until),
      in index order. */
  function OnCommands(commands: seq<string>, on: seq<bool>, from: nat, until: nat): seq<string>
    requires from <= until && until <= |on| && |on| == |commands|
    decreases until - from
  {
    if from == until then []
    else (if on[from] then [commands[from]] else []) + OnCommands(commands, on, from + 1, until)
  }

  /** Switch `i` is the first that is on and whose exchange succeeds. */
  predicate FirstWinner(spec: GroupSpec, on: seq<bool>, acks: seq<Ack>, i: int)
    requires |on| == |acks|
  {
    && 0 <= i < |on| && on[i] && Succeeds(spec, acks[i])
    && forall j :: 0 <= j < i && on[j] ==> !Succeeds(spec, acks[j])
  }

  datatype Attempted = Attempted(winner: Option<nat>, sent: seq<string>)

  /** The walk over switches `from` onwards. */
  function Attempt(spec: GroupSpec, on: seq<bool>, acks: seq<Ack>, from: nat): (r: Attempted)
    requires |on| == |acks| == |spec.commands| && from <= |on|
    decreases |on| - from
    ensures r.winner.Some? ==>
      && from <= r.winner.value < |on| && on[r.winner.value] && Succeeds(spec, acks[r.winner.value])
      && (forall j :: from <= j < r.winner.value && on[j] ==> !Succeeds(spec, acks[j]))
      && r.sent == OnCommands(spec.commands, on, from, r.winner.value + 1)
    ensures r.winner.None? ==>
      && (forall j :: from <= j < |on| && on[j] ==> !Succeeds(spec, acks[j]))
      && r.sent == OnCommands(spec.commands, on, from, |on|)
  {
    if from == |on| then Attempted(None, [])
    else if on[from] && Succeeds(spec, acks[from]) then Attempted(Some(from), [spec.commands[from]])
    else
      var rest := Attempt(spec, on, acks, from + 1);
      Attempted(rest.winner, (if on[from] then [spec.commands[from]] else []) + rest.sent)
  }

  function AllOff(n: nat): (r: seq<bool>)
    ensures |r| == n && forall i :: 0 <= i < n ==> !r[i]
  {
    seq(n, _ => false)
  }

  /** The switches after an update, the state the property ends in, the
      message sent with it, and the commands written. `handled` is what the
      handler returns to the framework. */
  datatype SwitchReply = SwitchReply(
    handled: bool, switches: seq<bool>, state: IPState, message: Option<string>, sent: seq<string>)

  /** One switch update, `on` being the switches after the framework applied
      the client's request. */
  function Dispatch(spec: GroupSpec, on: seq<bool>, acks: seq<Ack>): (r: SwitchReply)
    requires ValidSpec(spec) && |on| == |acks| == |spec.commands|
    ensures r.handled
    ensures r.state == Ok <==> exists i :: FirstWinner(spec, on, acks, i)
    ensures forall i :: FirstWinner(spec, on, acks, i) ==>
      && r.message == Some(spec.messages[i])
      && r.sent == OnCommands(spec.commands, on, 0, i + 1)
      && r.switches == (if spec.resetOnWin == Some(i) then AllOff(|on|) else on)
    ensures r.state != Ok ==>
      && r.state == spec.failState && r.message == None
      && r.switches == AllOff(|on|)
      && r.sent == OnCommands(spec.commands, on, 0, |on|)
  {
    var a := Attempt(spec, on, acks, 0);
    match a.winner
    case Some(i) =>
      assert FirstWinner(spec, on, acks, i);
      SwitchReply(true, if spec.resetOnWin == Some(i) then AllOff(|on|) else on, Ok,
                  Some(spec.messages[i]), a.sent)
    case None =>
      SwitchReply(true, AllOff(|on|), spec.failState, None, a.sent)
  }

  /** At most one switch is the first winner. */
  lemma FirstWinnerUnique(spec: GroupSpec, on: seq<bool>, acks: seq<Ack>, i: int, k: int)
    requires |on| == |acks|
    requires FirstWinner(spec, on, acks, i) && FirstWinner(spec, on, acks, k)
    ensures i == k
  {
  }

  /** Tracking compensation treats the opposite controller answer as success
      from the three SX setters: for one and the same answered byte, exactly
      one of the two kinds of handler accepts it. */
  lemma SuccessPolarityOpposed(c: char)
    ensures Succeeds(TRACK_COMP, Ack(TTY_OK, GotByte(c))) <==> c != '0'
    ensures Succeeds(AUTO_FLIP, Ack(TTY_OK, GotByte(c))) <==> c == '0'
    ensures Succeeds(HOME_PAUSE, Ack(TTY_OK, GotByte(c))) <==> c == '0'
    ensures Succeeds(PREFERRED_PIER, Ack(TTY_OK, GotByte(c))) <==> c == '0'
  {
  }

  /** The blind sender always reports true, so no frequency adjustment ever
      succeeds: every selected command is sent and the property ends IDLE
      with its switches reset. */
  lemma {:induction false} FrequencyAdjustNeverSucceeds(on: seq<bool>, acks: seq<Ack>)
    requires |on| == |acks| == 3
    ensures var r := Dispatch(FREQUENCY_ADJUST, on, acks);
      && r.state == Idle && r.switches == AllOff(3) && r.message == None
      && r.sent == OnCommands(FREQUENCY_ADJUST.commands, on, 0, 3)
  {
    forall i | 0 <= i < 3
      ensures !Succeeds(FREQUENCY_ADJUST, acks[i])
    {
      assert SendBlind(acks[i].writeCode);
    }
    assert forall i :: !FirstWinner(FREQUENCY_ADJUST, on, acks, i);
  }

  /** A confirmed "continue" resets the pause-at-home switches. */
  lemma HomePauseContinueResets(ack0: Ack, ack1: Ack)
    ensures var r := Dispatch(HOME_PAUSE, [false, false, true], [ack0, ack1, Ack(TTY_OK, GotByte('0'))]);
      && r.state == Ok && r.switches == [false, false, false]
      && r.message == Some("Home Pause: Continue") && r.sent == [":SX99,1#"]
  {
    var on := [false, false, true];
    var acks := [ack0, ack1, Ack(TTY_OK, GotByte('0'))];
    assert FirstWinner(HOME_PAUSE, on, acks, 2);
    assert AllOff(3) == [false, false, false];
  }

  /** A refused automatic flip leaves the property BUSY: its fallback never
      sets IDLE. */
  lemma AutoFlipRefusedStaysBusy(c: char)
    requires c != '0'
    ensures var r := Dispatch(AUTO_FLIP, [false, true], [Ack(TTY_OK, GotByte('0')), Ack(TTY_OK, GotByte(c))]);
      && r.state == Busy && r.switches == [false, false] && r.sent == [":SX95,1#"]
  {
    var on := [false, true];
    var acks := [Ack(TTY_OK, GotByte('0')), Ack(TTY_OK, GotByte(c))];
    assert !FirstWinner(AUTO_FLIP, on, acks, 1);
    assert AllOff(2) == [false, false];
  }

  datatype HomeReply = HomeReply(
    handled: bool, home: seq<bool>, retic: seq<bool>, state: IPState, message: string, sent: seq<string>)

  /** The homing handler: "return home" (`:hC#`) when the first switch is on,
      otherwise "at home, reset" (`:hF#`), sent blind. The blind sender never
      reports false, so the early failure return is unreachable. The switch
      just acted on is turned off, the reticle switches (not the homing
      ones) are reset, and the property ends IDLE. */
  function SetHome(home: seq<bool>, retic: seq<bool>, writeCode: int): (r: HomeReply)
    requires |home| == 2
    ensures r.handled && r.state == Idle
    ensures r.sent == [if home[0] then ":hC#" else ":hF#"]
    ensures |r.home| == 2 && !r.home[if home[0] then 0 else 1]
    ensures r.home[if home[0] then 1 else 0] == home[if home[0] then 1 else 0]
    ensures |r.retic| == |retic| && forall i :: 0 <= i < |retic| ==> !r.retic[i]
  {
    var cmd := if home[0] then ":hC#" else ":hF#";
    if !SendBlind(writeCode) then
      HomeReply(false, home, retic, Ok, "", [cmd])
    else if home[0] then
      HomeReply(true, home[0 := false], AllOff(|retic|), Idle, "Return Home", [cmd])
    else
      HomeReply(true, home[1 := false], AllOff(|retic|), Idle, "At Home (Reset)", [cmd])
  }
}
